=== FILE: README.md ===
# Topic news reader — a Dafny model of its core

The application is a single-page news reader. The user opens one tab per topic. For each
topic, a generative web-search endpoint is asked for a structured feed:
- top stories
- a "river" of shorter items
- quick links
- trending topics

The service layer then does four things:
1. It builds the prompt.
2. It sends it with a large output budget, and retries once with a smaller budget if anything
   goes wrong.
3. It pulls the answer text out of the response envelope and recovers a JSON object from it,
   even when stray text surrounds the object.
4. It re-ranks stories and river items by freshness. The freshness is parsed from relative
   timestamps such as "2 hours ago". A boost is given to a curated set of publishers.

The screen keeps a list of tabs, with topics de-duplicated case-insensitively, plus an active
tab and an input box.

The model is pure Dafny with one module per file:

| module | file | models |
|---|---|---|
| `Wrappers` | wrappers.dfy | `Option` and `Result` |
| `Text` | text.dfy | JavaScript `trim` and white space, ASCII `toLowerCase`, `indexOf`, `lastIndexOf`, removing white space, decimal numerals |
| `Types` | types.dfy | the records of `types.ts` |
| `RelativeTime` | relative_time.dfy | `parseRelativeMinutes`. The regular expression is a deterministic matcher, proved equal to a declarative definition of "leftmost match". |
| `Scoring` | scoring.dfy | `AUTHORITY_SOURCES` and `scoreItem` |
| `StableSort` | stable_sort.dfy | a stable descending sort. It is characterised independently: non-increasing, and every key's subsequence is preserved. That characterisation is proved to be unique. |
| `Ranking` | ranking.dfy | `sortByFreshAndAuthority`, `sortRiverByFreshAndAuthority`, and the re-ranking of a parsed feed |
| `JsonRecovery` | json_recovery.dfy | `tryParseJson`, over a `parse` oracle that stands for `JSON.parse` |
| `Envelope` | envelope.dfy | `extractOutputText` and the response checks of `requestNews` |
| `Prompt` | prompt.dfy | `buildPrompt`, character for character |
| `Orchestrator` | orchestrator.dfy | `fetchNewsForTopic`, over a `send` oracle that stands for the HTTP endpoint |
| `Tabs` | tabs.dfy | the `App.tsx` state machine: create, complete, close, select, default tab, submit, the trending label and the retry button |

## Modelling choices

**Numbers.** Scores are JavaScript floating point: `-(minutes / 100000) + 0.15`. The model
multiplies every score by 100000, so a score is the exact integer `15000·curated − minutes`.
An unknown age scores `−15000·curated`. `Scoring.ScoreIsScaledFormula` states that this is
the source formula over the exact reals, times 100000. The scaling is positive, so exact
comparisons are kept. The source's doubles are not exact, though: where a curated and a
non-curated item have exactly equal scores in the model, rounding can break the tie in the
source (see `Scoring.ScoreItem` under Left out).

**Relative ages.** `Number.POSITIVE_INFINITY`, the "unknown age" value, is the constructor
`Age.Unknown`.

**Oracles.** `JSON.parse` is a function parameter `parse: string -> Result<T, E>`. The
endpoint is a parameter `send: Request -> HttpResponse`. `fetchNewsForTopic` returns a
`Run`. A `Run` records the requests that were sent, in order, and the outcome. This makes
two things statable:
- nothing is sent without a key;
- at most one fallback request is sent.

**Tabs.** Every effect of `App.tsx` is a pure transition on `AppState(tabs, active, input)`.
A transition that starts a fetch returns a `Fetch(tabId, topic)` effect. The fetch's
settlement is a later `Completed` event. The ids from `Math.random` are parameters
(`freshId`). `Tabs.Step` is the screen as written, so its `Retry` event is the source's
retry button, which never fetches (see Findings). The corrected retry `Tabs.Resync` is
stated and proved on its own.

**Behaviour of the source worth knowing:**
- **Tier-2 failure.** When the fallback tier fails too, its own error is rethrown unchanged,
  not wrapped in a new one (`Orchestrator.FailureReportsFallbackError`).
- **Failed recovery.** When the recovered `{…}` slice also fails to parse, the slice's own
  parse error is thrown, not the first one (`JsonRecovery.TryParseJson`). The first error is
  kept only when no `{ … }` pair exists (`JsonRecovery.NoOpenBraceKeepsOriginalError`).
- **Unknown ages.** A known age does not always outrank an unknown one. A non-curated item of
  unknown age scores 0, which beats every non-curated item of known, positive age
  (`Scoring.UnknownAgeNonCurated`).
- **Resubmitting a topic.** Submitting a topic that already has a tab only re-activates that
  tab; nothing is fetched again (`Tabs.ReopeningTopicAddsNoTab`, and see Findings).
- **White space.** `trim` and `\s` use the full ECMAScript white-space and line-terminator
  set, not only ASCII spaces.

## Model

| member | source | states |
|---|---|---|
| Text.Trim | services/openaiService.ts:252 | the result has no leading or trailing white space and is a contiguous slice of the input with only white space cut off either end |
| Text.TrimIdempotent | App.tsx:63-64 | trimming an already trimmed topic changes nothing, so the topic `handleSubmit` passes on is stable under a second trim |
| Text.IndexOf | services/openaiService.ts:256 | the result is −1 exactly when the character is absent; otherwise the character is at that index and at no earlier index |
| Text.LastIndexOf | services/openaiService.ts:257 | the result is −1 exactly when the character is absent; otherwise the character is at that index and at no later index |
| Text.Lower | services/openaiService.ts:206 | the same length, each character lowered on its own |
| Text.LowerTrimCommute | services/openaiService.ts:206 | trimming then lower-casing equals lower-casing then trimming, so the model's `Lower(Trim(s))` is the source's `s.toLowerCase().trim()` |
| Text.LowerNoUpper | services/openaiService.ts:206 | text without upper-case letters, such as every curated source name, is unchanged by lower-casing |
| Text.RemoveSpace | App.tsx:144 | no white space remains, and each non-space character occurs as often as in the input; the order is fixed by the two lemmas below |
| Text.RemoveSpaceAppend | App.tsx:144 | removal works piece by piece: removing from `a + b` is removing from `a`, then from `b`, joined in that order |
| Text.RemoveSpaceOfChar | App.tsx:144 | a single character is dropped exactly when it is white space, else kept; with the previous row, the result is the input's non-space characters in their order |
| Text.RemoveSpaceJoinsWords | App.tsx:144 | removing white space from `a + " " + b` equals removing it from `a` and `b` separately and joining them |
| Text.Concat | services/openaiService.ts:98 | `join("")` is empty exactly when every part is empty; the content and order are fixed by the two lemmas below |
| Text.ConcatAppend | services/openaiService.ts:98 | joining `a + b` is joining `a` followed by joining `b` |
| Text.ConcatOne | services/openaiService.ts:98 | one part joins to itself; with the previous row, the result is the parts back to back, in order |
| Text.DecimalValueOfNatToString | services/openaiService.ts:114-125 | a count interpolated into the prompt reads back as the same number |
| RelativeTime.MatchAtSound | services/openaiService.ts:207 | whatever the matcher accepts at a position is a match of `(\d+)\s*(unit)s?\s*ago`, with the captured digit run and unit |
| RelativeTime.MatchAtComplete | services/openaiService.ts:207 | every match starting at a position is found by the matcher there, with the greedy digit run |
| RelativeTime.FirstMatchFrom | services/openaiService.ts:207 | the matcher returns the leftmost position at which the pattern matches, and no earlier position matches |
| RelativeTime.FirstMatchIsLeftmost | services/openaiService.ts:207 | the matcher's result is the leftmost match of the declarative pattern |
| RelativeTime.ParseUnknownIffNoMatch | services/openaiService.ts:205-208 | `parseRelativeMinutes` gives the unknown age exactly when the lower-cased, trimmed timestamp contains no match |
| RelativeTime.ParseTakesLeftmostMatch | services/openaiService.ts:205-219 | when there is a match, `parseRelativeMinutes` gives the leftmost match's captured number times its unit's minutes |
| RelativeTime.ParseIgnoresCaseAndPadding | services/openaiService.ts:205-206 | lower-casing and trimming are idempotent, so the age of a timestamp equals the age of its normalised form: case and surrounding white space never change it |
| RelativeTime.LeftmostMatchTakesWholeDigitRun | services/openaiService.ts:207 | the leftmost match never starts in the middle of a digit run, so "12 hours ago" reads 12, not 2 |
| RelativeTime.PhraseIsNormal | services/openaiService.ts:206 | a phrase such as "2 hours ago" is unchanged by lower-casing and trimming |
| RelativeTime.ParsePhrase | services/openaiService.ts:205-219 | for every amount and unit, singular or plural, the phrase "n unit ago" parses to n times the unit's minutes |
| Scoring.ReutersIsCurated | services/openaiService.ts:179-202 | "Reuters" counts as curated once lower-cased, and an outlet outside the set does not |
| Scoring.AuthorityByName | services/openaiService.ts:224-225 | for a source without surrounding white space, it is curated exactly when its lower-cased form is in the set |
| Scoring.ScoreItem | services/openaiService.ts:222-230 | the score of a timestamp and source is exactly 100000 times the source formula over the reals, applied to the parsed age and the source's boost |
| Scoring.ScoreIsScaledFormula | services/openaiService.ts:222-230 | the integer score is exactly 100000 times the real score `−minutes/100000 + boost`, and `−boost` for an unknown age |
| Scoring.FresherScoresHigher | services/openaiService.ts:222-230 | for the same source, a strictly younger known age scores strictly higher |
| Scoring.CuratedBoostAtEqualAge | services/openaiService.ts:224-229 | at equal age, a curated source scores exactly 15000 above a non-curated one |
| Scoring.AuthorityOutweighsModestAgeGap | services/openaiService.ts:222-230 | in exact arithmetic, an older curated item outranks a younger non-curated one exactly when the age gap is under 15000 minutes |
| Scoring.UnknownAgeNonCurated | services/openaiService.ts:226-228 | a non-curated item of unknown age scores 0, above every non-curated item of positive known age |
| Scoring.UnknownAgeCurated | services/openaiService.ts:226-228 | a curated item of unknown age scores −15000, below a non-curated item of unknown age: the boost turns into a penalty |
| Scoring.CuratedTenHoursBeatsTwoHours | services/openaiService.ts:179-230 | "10 hours ago" from Reuters scores 14400 and outranks "2 hours ago" from an uncurated outlet, which scores −120 |
| StableSort.SortDescending | services/openaiService.ts:233-237 | the result is a non-increasing, stable rearrangement of the input: every key's subsequence is kept, and the multiset is unchanged |
| StableSort.StableSortUnique | services/openaiService.ts:233-237 | two non-increasing sequences with the same per-key subsequences are equal, so a stable sort's result is fully determined |
| StableSort.StableSortIsSortDescending | services/openaiService.ts:233-237 | any stable descending sort of the input equals the model's sort |
| StableSort.SortDescendingIdempotent | services/openaiService.ts:233-237 | sorting a sorted sequence again changes nothing |
| StableSort.SortedItemsPermutation | services/openaiService.ts:241-247 | scoring, sorting and dropping the scores leaves a permutation of the items |
| Ranking.SortByFreshAndAuthority | services/openaiService.ts:232-238 | stories come out as a stable descending sort by their own score: a permutation with scores non-increasing |
| Ranking.SortByFreshAndAuthorityUnique | services/openaiService.ts:232-238 | any stable descending ordering of the stories by score is the result |
| Ranking.SortByFreshAndAuthorityIdempotent | services/openaiService.ts:232-238 | re-ranking ranked stories changes nothing |
| Ranking.Timestamps | services/openaiService.ts:279 | one timestamp per top story, the i-th being the i-th story's, in the unsorted order |
| Ranking.RiverScores | services/openaiService.ts:242-245 | river item i is scored with its own source and the i-th timestamp, or "" when there is none |
| Ranking.SortRiverByFreshAndAuthority | services/openaiService.ts:240-248 | the river is a permutation of its items, namely the items of a stable descending sort of the scored items |
| Ranking.RiverBeyondTimestampsIsUnknownAge | services/openaiService.ts:244 | a river item past the last top story scores as unknown age |
| Ranking.RankFeed | services/openaiService.ts:276-280 | topic and sidebar pass through; top stories are stably sorted; the river is sorted with the top stories' timestamps in their unsorted order |
| JsonRecovery.BraceSpan | services/openaiService.ts:256-258 | a span is found exactly when a `{` precedes a `}`; the span runs from the first `{` to the last `}` |
| JsonRecovery.OutermostBracesUnique | services/openaiService.ts:256-257 | the first-`{`/last-`}` span of a text is unique |
| JsonRecovery.TryParseJson | services/openaiService.ts:251-263 | a direct parse of the trimmed text wins if it succeeds; otherwise the outermost brace span is parsed when one exists, and the original error is kept when none does |
| JsonRecovery.ResultIsParseOfSlice | services/openaiService.ts:251-263 | the result is always the parse of some slice of the trimmed text |
| JsonRecovery.NoOpenBraceKeepsOriginalError | services/openaiService.ts:258-261 | with no `{` in the text, a failed parse is reported unchanged |
| JsonRecovery.TrimKeepsOutermostBraces | services/openaiService.ts:252-257 | trimming keeps the outermost braces of the raw text, and only shifts their positions |
| JsonRecovery.RecoversOutermostSpan | services/openaiService.ts:251-260 | when the whole text fails to parse, the result is the parse of the raw text's outermost brace span |
| JsonRecovery.RecoversWrappedObject | services/openaiService.ts:250-260 | an object wrapped in brace-free commentary parses as the object alone |
| Envelope.TextParts | services/openaiService.ts:92-96 | every entry is a non-empty text, there are no more entries than records, and there are none exactly when no record is a non-empty "output_text" part; which texts, in order, is fixed by the two lemmas below |
| Envelope.TextPartsAppend | services/openaiService.ts:92-96 | the texts of `a + b` are the texts of `a` followed by those of `b` |
| Envelope.TextPartsOne | services/openaiService.ts:94-96 | one record yields its text exactly when it is an "output_text" part with a non-empty string text, else nothing; with the previous row, the result is those texts in record order |
| Envelope.ExtractOutputText | services/openaiService.ts:87-99 | a non-blank top-level `output_text` wins; otherwise the nested texts are joined when any exist, else nothing; the result is never empty |
| Envelope.NestedTextAppend | services/openaiService.ts:92-98 | joining the nested text of two output lists is the nested text of their concatenation |
| Envelope.NestedTextOfOneRecord | services/openaiService.ts:92-98 | a single output record with one text part yields exactly that text |
| Envelope.NestedTextIgnoresOtherRecords | services/openaiService.ts:94-96 | an entry whose records are all of another type, or have a missing or empty text, contributes no nested text |
| Envelope.BlankOutputTextFallsThrough | services/openaiService.ts:88-98 | a blank top-level `output_text` is ignored in favour of the nested parts |
| Envelope.InterpretResponse | services/openaiService.ts:164-175 | no response is a network error; a non-2xx status is a request failure with that status and body text; a 2xx body that is not JSON is an invalid body; a 2xx body without text is no output; otherwise success with the extracted, non-empty text |
| Envelope.ReadsBackNestedAnswer | services/openaiService.ts:164-175 | a 2xx reply whose only output is one text record of the answer, with `output_text` blank or absent, is read back as exactly that answer; a non-2xx reply with that body is a request failure |
| Prompt.BuildPrompt | services/openaiService.ts:101-128 | the prompt starts with the fixed opening, then the topic verbatim, and ends with the counts section |
| Prompt.CountsTextInjective | services/openaiService.ts:114-125 | different counts give different counts sections |
| Prompt.BuildPromptDeterminesCounts | services/openaiService.ts:101-128 | for one topic, the prompt determines the four counts |
| Orchestrator.RequestNews | services/openaiService.ts:130-176 | a request with no response fails as a network error; a success comes from a 2xx response whose body's extracted text is the value, which is non-empty |
| Orchestrator.Attempt | services/openaiService.ts:273-280 | a tier succeeds exactly when its request yields text that parses; the value is the ranked parse; a request error is kept and a parse failure becomes a syntax error carrying the parser's message |
| Orchestrator.FetchNewsForTopic | services/openaiService.ts:265-290 | without a key, no request is sent and the key is missing; otherwise the primary request (6/12/7/5, 4000 tokens) goes first, and a fallback (5/10/6/4, 2200 tokens) is sent exactly when the primary fails and decides the outcome |
| Orchestrator.SuccessIsRankedParse | services/openaiService.ts:273-289 | a returned feed is a re-ranking of some successfully parsed feed: topic and sidebar equal, stories and river permuted |
| Orchestrator.PrimarySuccessIgnoresFallback | services/openaiService.ts:273-281 | when tier 1 succeeds, how the endpoint would answer a fallback request does not matter |
| Orchestrator.FallbackPromptDiffers | services/openaiService.ts:270-271 | the fallback prompt differs from the primary one |
| Orchestrator.FailureReportsFallbackError | services/openaiService.ts:281-289 | when both tiers fail, the error reported is the fallback tier's own |
| Tabs.FindByTopic | App.tsx:16 | finds the first tab whose topic equals the given one after lower-casing, and nothing exactly when there is none |
| Tabs.CreateTab | App.tsx:15-31 | an existing topic is re-activated with no new tab and no fetch; a new topic appends a loading tab with the fresh id, activates it and fetches its topic |
| Tabs.CompleteFetch | App.tsx:33-43 | only the tab with the completed id changes: idle with the feed on success, error with its old feed on failure |
| Tabs.StaleCompletionIgnored | App.tsx:35-42 | a completion for a tab that has been closed changes nothing |
| Tabs.Without | App.tsx:48 | no tab with the id remains, every remaining tab is from the list, and every other tab remains; the order is fixed by the two lemmas below |
| Tabs.WithoutAppend | App.tsx:48 | filtering `a + b` is filtering `a` followed by filtering `b` |
| Tabs.WithoutAbsent | App.tsx:48 | filtering out an id that no tab carries leaves the list unchanged |
| Tabs.WithoutOne | App.tsx:48 | one tab is dropped exactly when it carries the id; with the previous row, the result is the other tabs in their order |
| Tabs.CloseTab | App.tsx:46-53 | closing the active tab activates the last remaining tab, or none when none remain; closing another tab leaves the selection alone |
| Tabs.SelectTab | App.tsx:116 | the clicked tab becomes active and nothing else changes |
| Tabs.EnsureDefaultTab | App.tsx:55-59 | with no tabs, one loading "Artificial Intelligence" tab is opened and fetched; otherwise nothing changes |
| Tabs.HandleSubmit | App.tsx:61-67 | blank input does nothing; otherwise the trimmed topic is opened as by `createTab` and the input is cleared |
| Tabs.TrendingLabel | App.tsx:144 | the label starts with `#`, has no white space after it, and has each non-space character as often as the topic, plus the one leading `#`; after the `#` it is the topic with white space removed, in order (`Text.RemoveSpaceAppend`, `Text.RemoveSpaceOfChar`) |
| Tabs.TrendingLabelOfSpacelessTopic | App.tsx:144 | a topic without white space is shown as `#` followed by the topic itself |
| Tabs.TrendingLabelJoinsWords | App.tsx:144 | the label of a two-word topic "a b" is the label of "a" followed by "b" with its white space removed |
| Tabs.ActiveTab | App.tsx:13 | the active tab is the tab carrying the active id, if any |
| Tabs.ResyncAsWrittenNeverRefetches | App.tsx:212 | the retry button as written never starts a fetch and never changes the tabs |
| Tabs.ResyncAsWrittenWellFormed | App.tsx:212 | the retry button as written keeps the tab invariant |
| Tabs.ResyncWellFormed | App.tsx:200-216 | the corrected retry keeps the tab invariant |
| Tabs.ResyncRefetches | App.tsx:200-216 | the corrected retry puts the failed tab back to loading, fetches its topic again, and a successful completion makes it idle with the new feed |
| Tabs.InitialWellFormed | App.tsx:9-11 | the initial state satisfies the tab invariant |
| Tabs.CreateTabWellFormed | App.tsx:15-31 | opening a topic keeps ids and topics distinct, the active id present, and every idle tab with a feed |
| Tabs.CreateTabActivatesTopic | App.tsx:15-31 | after opening a topic, the active tab carries that topic (up to case) |
| Tabs.ReopeningTopicAddsNoTab | App.tsx:16-20 | opening a topic twice leaves one tab for it |
| Tabs.CompleteFetchWellFormed | App.tsx:33-43 | a completion keeps the tab invariant |
| Tabs.CloseTabWellFormed | App.tsx:46-53 | closing a tab keeps the tab invariant |
| Tabs.Step | App.tsx:15-216 | the screen as written: only submitting, opening a topic and the default-tab effect can start a fetch; the retry button, as in the source, starts none and leaves the tabs unchanged; typing sets the input and changes nothing else; no event other than typing or submitting changes the input, and completions and typing keep the selection |
| Tabs.StepPreservesWellFormed | App.tsx:15-216 | every enabled user or network event of the screen as written, the source's retry button included, keeps the tab invariant |
| Tabs.ClosingLastTabReopensDefault | App.tsx:46-59 | closing the only tab leaves no tab and no selection, and the default-tab effect then fetches the default topic |

## Left out

- HTTP transport: the URL, headers, authorisation, temperature, the web-search tool and the
  JSON response-schema literal (services/openaiService.ts:7-85, 136-162) are not modelled.
  A request is reduced to its model name, output budget, system instruction, and the topic
  and counts its prompt is filled in from; `Orchestrator.PromptOf` gives the prompt text. The
  endpoint's answer is the `send` oracle.
- `JSON.parse` and the `as NewsFeed` cast: the grammar is the `parse` oracle. A parse that
  yields a value of the wrong shape, which the source would trip over later as a runtime
  `TypeError`, is not representable.
- Reading the API key from the build environment: the key is a parameter.
- Floating point: scores are scaled to exact integers (see Modelling choices). `Number(...)`
  of a very long digit run overflows to `Infinity` in the source. The model's numbers are
  unbounded, so that overflow is not modelled.
- Scoring.ScoreItem: scores are exact in the model but IEEE doubles in the source, so the
  exact ties between a curated and a non-curated item are not ties in the source. For example,
  Reuters "11 days ago" and an uncurated outlet "14 hours ago" both score −840 here. In the
  source they are −(15840/100000)+0.15 = −0.008400000000000019 and −0.0084, so the
  uncurated story sorts first. The model keeps input order for such ties.
- Scoring.AuthorityOutweighsModestAgeGap: holds in exact arithmetic. At the 15000-minute
  boundary, rounding in the source can decide the comparison either way.
- Text.Lower: lower-cases ASCII letters only. JavaScript's `toLowerCase` also maps non-ASCII
  letters, which can change tab de-duplication and curated-source lookup for such topics and
  sources.
- RelativeTime.ParseRelativeMinutes: the `?? 525600` fallback at services/openaiService.ts:219 has no
  counterpart, because the captured unit is always one of the six table keys.
- Ranking.StoryScore: the `timestamp ?? ""` default at services/openaiService.ts:234 is not
  modelled, because `timestamp` is a mandatory field of a story.
- Scoring.AuthoritySources: listed verbatim; no property is proved about its size.
- Error message strings (services/openaiService.ts:166, 172, 267): errors are the constructors
  of `FetchError`. The text is only logged by the screen.
- `console.error`, rendering, the loading skeleton and the story cards (components/) are
  presentation only.
- Asynchrony: a fetch's settlement is a separate `Completed` event, applied to the latest
  state, as the functional `setTabs(prev => …)` updates do. React's batching, and the stale
  `tabs` closure captured by `createTab` (App.tsx:44), are not modelled. Two overlapping
  `createTab` calls for the same new topic within one render can therefore both pass the
  duplicate check in the source, but not in the model.
- Tab ids from `Math.random().toString(36)` are supplied fresh by the caller (`freshId`).
  The source does not guarantee uniqueness; the invariant assumes it.

## Findings

| source | as written | input that shows it | evidently intended | confidence | as-written member | corrected member |
|---|---|---|---|---|---|---|
| App.tsx:212 | "Try Resyncing" calls `createTab(activeTab.topic)`. The failed tab itself has that topic, so the duplicate check at App.tsx:16-19 finds it, only re-activates it and returns. | any state whose active tab is in the error state, e.g. the single tab "Artificial Intelligence" after a failed fetch | the failed tab goes back to loading and its topic is fetched again | not executed | Tabs.ResyncAsWritten, Tabs.ResyncAsWrittenNeverRefetches | Tabs.Resync, Tabs.ResyncRefetches |

=== FILE: envelope.dfy ===
/** The endpoint client's reading of a response: `extractOutputText` on the parsed body
    and the checks `requestNews` makes after the call returns. */
module Envelope {
  import opened Wrappers
  import opened Text

  /** One `output[].content[]` record. `kind` and `text` are the `type` and `text`
      fields when they are strings, `None` otherwise. */
  datatype ContentPart = ContentPart(kind: Option<string>, text: Option<string>)

  /** One `output[]` entry; a missing `content` reads as no records. */
  datatype OutputItem = OutputItem(content: seq<ContentPart>)

  /** The JSON body of a successful response. `outputText` is `output_text` when it is a
      string; a missing `output` reads as no entries. */
  datatype ResponseBody = ResponseBody(outputText: Option<string>, output: seq<OutputItem>)

  const OutputTextKind: string := "output_text"

  /** A record that contributes to the extracted text. */
  predicate IsTextPart(p: ContentPart) {
    p.kind == Some(OutputTextKind) && p.text.Some? && p.text.value != []
  }

  /** `output.flatMap((item) => item.content)`. */
  function Contents(output: seq<OutputItem>): (r: seq<ContentPart>)
    ensures |output| == 1 ==> r == output[0].content
  {
    if |output| == 0 then [] else output[0].content + Contents(output[1..])
  }

  lemma {:induction false} ContentsAppend(a: seq<OutputItem>, b: seq<OutputItem>)
    ensures Contents(a + b) == Contents(a) + Contents(b)
  {
    if |a| == 0 {
      assert a + b == b;
    } else {
      assert (a + b)[1..] == a[1..] + b;
      ContentsAppend(a[1..], b);
    }
  }

  /** The texts of the contributing records, in order. */
  function TextParts(parts: seq<ContentPart>): (r: seq<string>)
    ensures |r| <= |parts|
    ensures forall i :: 0 <= i < |r| ==> r[i] != []
    ensures r == [] <==> forall i :: 0 <= i < |parts| ==> !IsTextPart(parts[i])
  {
    if |parts| == 0 then []
    else
      var rest := TextParts(parts[1..]);
      assert forall i :: 1 <= i < |parts| ==> parts[i] == parts[1..][i - 1];
      if IsTextPart(parts[0]) then [parts[0].text.value] + rest else rest
  }

  lemma {:induction false} TextPartsAppend(a: seq<ContentPart>, b: seq<ContentPart>)
    ensures TextParts(a + b) == TextParts(a) + TextParts(b)
  {
    if |a| == 0 {
      assert a + b == b;
    } else {
      assert (a + b)[1..] == a[1..] + b;
      TextPartsAppend(a[1..], b);
    }
  }

  /** A single record yields its text exactly when it contributes. With `TextPartsAppend`
      this fixes the result: the contributing texts, in order. */
  lemma TextPartsOne(p: ContentPart)
    ensures TextParts([p]) == if IsTextPart(p) then [p.text.value] else []
  {
    assert [p][1..] == [];
  }

  /** Some nested record contributes text. */
  predicate HasTextPart(output: seq<OutputItem>) {
    exists i :: 0 <= i < |Contents(output)| && IsTextPart(Contents(output)[i])
  }

  /** Whether `output_text` is used as it stands: a string that is not blank. */
  predicate HasOutputText(body: ResponseBody) {
    body.outputText.Some? && Trim(body.outputText.value) != []
  }

  /** The text assembled from the nested records, used when `output_text` is not. */
  function NestedText(output: seq<OutputItem>): string {
    Concat(TextParts(Contents(output)))
  }

  /** `extractOutputText`. A usable `output_text` is returned exactly as given, untrimmed;
      otherwise the contributing nested texts joined in order, or nothing when there is none.
      What comes back is never empty. */
  function ExtractOutputText(body: ResponseBody): (r: Option<string>)
    ensures r.Some? ==> r.value != []
    ensures HasOutputText(body) ==> r == body.outputText
    ensures !HasOutputText(body) ==> (r.Some? <==> HasTextPart(body.output))
    ensures !HasOutputText(body) && r.Some? ==> r.value == NestedText(body.output)
  {
    if HasOutputText(body) then body.outputText
    else
      var contents := Contents(body.output);
      var parts := TextParts(contents);
      if |parts| > 0 then
        assert parts[0] != [];
        assert HasTextPart(body.output);
        Some(Concat(parts))
      else None
  }

  /** The nested text of several entries is the nested texts of each, in order. */
  lemma NestedTextAppend(a: seq<OutputItem>, b: seq<OutputItem>)
    ensures NestedText(a + b) == NestedText(a) + NestedText(b)
  {
    ContentsAppend(a, b);
    TextPartsAppend(Contents(a), Contents(b));
    ConcatAppend(TextParts(Contents(a)), TextParts(Contents(b)));
  }

  /** An entry holding one `output_text` record contributes exactly its text. */
  lemma NestedTextOfOneRecord(text: string)
    requires text != []
    ensures NestedText([OutputItem([ContentPart(Some(OutputTextKind), Some(text))])]) == text
  {
    var parts := [ContentPart(Some(OutputTextKind), Some(text))];
    assert TextParts(parts) == [text] by {
      assert parts[1..] == [];
    }
    assert Concat([text]) == text + Concat([]);
  }

  /** Records of any other type, and empty texts, contribute nothing. */
  lemma NestedTextIgnoresOtherRecords(content: seq<ContentPart>)
    requires forall i :: 0 <= i < |content| ==> !IsTextPart(content[i])
    ensures NestedText([OutputItem(content)]) == []
  {
  }

  /** A blank `output_text` (white space only) is passed over for the nested records. */
  lemma BlankOutputTextFallsThrough(blank: string, output: seq<OutputItem>)
    requires AllSpace(blank)
    ensures ExtractOutputText(ResponseBody(Some(blank), output)) == ExtractOutputText(ResponseBody(None, output))
  {
  }

  /** How a call to the endpoint ended: no response at all, or a status, the body as text
      and the body read as JSON (`None` when it is not JSON). */
  datatype HttpResponse =
    | NetworkFailure
    | Response(status: nat, bodyText: string, body: Option<ResponseBody>)

  /** `response.ok`. */
  predicate IsOk(status: nat) {
    200 <= status <= 299
  }

  /** The failures of the pipeline. */
  datatype FetchError =
    | MissingApiKey
    | Network
    | RequestFailed(status: nat, body: string)
    | InvalidResponseBody
    | NoOutput
    | Syntax(message: string)

  /** What `requestNews` makes of the response: the extracted text, or the failure it
      throws. A non-2xx status carries the status and body text; a 2xx body that is not
      JSON, or that yields no text, fails too. */
  function InterpretResponse(resp: HttpResponse): (r: Result<string, FetchError>)
    ensures r.Success? ==> r.value != []
    ensures r.Success? <==> resp.Response? && IsOk(resp.status) && resp.body.Some? && ExtractOutputText(resp.body.value).Some?
    ensures r.Success? ==> Some(r.value) == ExtractOutputText(resp.body.value)
    ensures resp.NetworkFailure? <==> r == Failure(Network)
    ensures (resp.Response? && !IsOk(resp.status)) <==> (r.Failure? && r.error.RequestFailed?)
    ensures resp.Response? && !IsOk(resp.status) ==> r == Failure(RequestFailed(resp.status, resp.bodyText))
    ensures resp.Response? && IsOk(resp.status) && resp.body.None? ==> r == Failure(InvalidResponseBody)
    ensures resp.Response? && IsOk(resp.status) && resp.body.Some? && ExtractOutputText(resp.body.value).None?
            ==> r == Failure(NoOutput)
  {
    match resp
    case NetworkFailure => Failure(Network)
    case Response(status, bodyText, body) =>
      if !IsOk(status) then Failure(RequestFailed(status, bodyText))
      else if body.None? then Failure(InvalidResponseBody)
      else
        match ExtractOutputText(body.value)
        case None => Failure(NoOutput)
        case Some(text) => Success(text)
  }

  /** A 2xx reply whose only output is one text record of the answer, with `output_text`
      blank or absent, is read back as exactly that answer; a non-2xx reply with the same
      body is a request failure instead. */
  lemma ReadsBackNestedAnswer(status: nat, bodyText: string, blank: Option<string>, answer: string)
    requires blank.None? || AllSpace(blank.value)
    requires answer != []
    ensures var body := ResponseBody(blank, [OutputItem([ContentPart(Some(OutputTextKind), Some(answer))])]);
            InterpretResponse(Response(status, bodyText, Some(body)))
            == if IsOk(status) then Success(answer) else Failure(RequestFailed(status, bodyText))
  {
    var output := [OutputItem([ContentPart(Some(OutputTextKind), Some(answer))])];
    NestedTextOfOneRecord(answer);
    if blank.Some? {
      BlankOutputTextFallsThrough(blank.value, output);
    }
    assert HasTextPart(output) by {
      assert Contents(output)[0] == ContentPart(Some(OutputTextKind), Some(answer));
    }
  }
}

=== FILE: json_recovery.dfy ===
/** `tryParseJson`: parse the trimmed model output as JSON and, when that fails, retry on
    the span from the first `{` to the last `}`. `JSON.parse` itself is not modelled: it
    is the parameter `parse`, and its error is carried through unchanged. */
module JsonRecovery {
  import opened Wrappers
  import opened Text

  /** Some `{` comes before some `}`. */
  predicate HasBracePair(t: string) {
    exists i, j :: 0 <= i < j < |t| && t[i] == '{' && t[j] == '}'
  }

  /** `t[i]` is the first `{` of `t`, `t[j]` its last `}`, and the first comes before the last. */
  predicate IsOutermostBraces(t: string, i: nat, j: nat) {
    i < j < |t| && t[i] == '{' && t[j] == '}' && '{' !in t[..i] && '}' !in t[j + 1..]
  }

  /** The positions the recovery slices between, when it applies. */
  function BraceSpan(t: string): (r: Option<(nat, nat)>)
    ensures r.Some? ==> IsOutermostBraces(t, r.value.0, r.value.1)
    ensures r.None? <==> !HasBracePair(t)
  {
    var start := IndexOf(t, '{');
    var end := LastIndexOf(t, '}');
    if start != -1 && end != -1 && end > start then Some((start, end))
    else
      NoBracePairWithoutSpan(t);
      None
  }

  lemma NoBracePairWithoutSpan(t: string)
    requires !(IndexOf(t, '{') != -1 && LastIndexOf(t, '}') != -1 && LastIndexOf(t, '}') > IndexOf(t, '{'))
    ensures !HasBracePair(t)
  {
  }

  /** The outermost braces of a text are determined by it. */
  lemma OutermostBracesUnique(t: string, i: nat, j: nat, i': nat, j': nat)
    requires IsOutermostBraces(t, i, j) && IsOutermostBraces(t, i', j')
    ensures i == i' && j == j'
  {
  }

  /** The parse-then-recover step on an already trimmed text `t`. */
  function ParseOrRecover<T, E>(parse: string -> Result<T, E>, t: string): (r: Result<T, E>)
    ensures parse(t).Success? ==> r == parse(t)
    ensures parse(t).Failure? && !HasBracePair(t) ==> r == parse(t)
    ensures parse(t).Failure? && HasBracePair(t) ==>
              exists i: nat, j: nat :: IsOutermostBraces(t, i, j) && r == parse(t[i..j + 1])
  {
    var first := parse(t);
    if first.Success? then first
    else
      var span := BraceSpan(t);
      if span.None? then first
      else
        var recovered := parse(t[span.value.0..span.value.1 + 1]);
        assert IsOutermostBraces(t, span.value.0, span.value.1);
        recovered
  }

  /** `tryParseJson` over a parser `parse`: the trimmed text if it parses, otherwise the
      outermost-brace slice of it, otherwise the first parse error. */
  function TryParseJson<T, E>(parse: string -> Result<T, E>, raw: string): (r: Result<T, E>)
    ensures parse(Trim(raw)).Success? ==> r == parse(Trim(raw))
    ensures parse(Trim(raw)).Failure? && !HasBracePair(Trim(raw)) ==> r == parse(Trim(raw))
    ensures parse(Trim(raw)).Failure? && HasBracePair(Trim(raw)) ==>
              exists i: nat, j: nat :: IsOutermostBraces(Trim(raw), i, j) && r == parse(Trim(raw)[i..j + 1])
  {
    ParseOrRecover(parse, Trim(raw))
  }

  /** Recovery on trimmed text parses exactly the outermost-brace slice. */
  lemma {:induction false} RecoversOutermostSpanOfTrimmed<T, E>(parse: string -> Result<T, E>, t: string, i: nat, j: nat, slice: string)
    requires IsOutermostBraces(t, i, j) && slice == t[i..j + 1]
    requires parse(t).Failure?
    ensures ParseOrRecover(parse, t) == parse(slice)
  {
    assert HasBracePair(t) by {
      assert 0 <= i < j < |t| && t[i] == '{' && t[j] == '}';
    }
    var span := BraceSpan(t);
    OutermostBracesUnique(t, i, j, span.value.0, span.value.1);
  }

  lemma {:induction false} RecoveredIsParseOfSlice<T, E>(parse: string -> Result<T, E>, t: string) returns (i: nat, j: nat, text: string)
    ensures i <= j <= |t| && text == t[i..j]
    ensures ParseOrRecover(parse, t) == parse(text)
  {
    var span := BraceSpan(t);
    if parse(t).Success? || span.None? {
      i, j, text := 0, |t|, t;
    } else {
      i, j := span.value.0, span.value.1 + 1;
      text := t[i..j];
    }
  }

  /** Whatever is returned is what `parse` makes of some slice of the trimmed text. */
  lemma {:induction false} ResultIsParseOfSlice<T, E>(parse: string -> Result<T, E>, raw: string) returns (i: nat, j: nat, text: string)
    ensures i <= j <= |Trim(raw)| && text == Trim(raw)[i..j]
    ensures TryParseJson(parse, raw) == parse(text)
  {
    i, j, text := RecoveredIsParseOfSlice(parse, Trim(raw));
  }

  /** Without any `{` the original parse error is reported. */
  lemma {:induction false} NoOpenBraceKeepsOriginalError<T, E>(parse: string -> Result<T, E>, raw: string)
    requires parse(Trim(raw)).Failure?
    requires '{' !in raw
    ensures TryParseJson(parse, raw) == parse(Trim(raw))
  {
    var t := Trim(raw);
    var k := TrimOffset(raw);
    assert '{' !in t;
  }

  lemma {:induction false} NonSpaceNotInSpaces(s: string, k: nat, a: nat)
    requires k <= |s| && a < |s| && AllSpace(s[..k]) && !IsSpace(s[a])
    ensures k <= a
  {
  }

  lemma {:induction false} NonSpaceNotInTrailingSpaces(s: string, k: nat, b: nat)
    requires k <= |s| && b < |s| && AllSpace(s[k..]) && !IsSpace(s[b])
    ensures b < k
  {
  }

  /** Trimming keeps every character between two non-space characters. */
  lemma {:induction false} TrimKeeps(s: string, a: nat, b: nat) returns (k: nat)
    requires a <= b < |s| && !IsSpace(s[a]) && !IsSpace(s[b])
    ensures k <= a && b < k + |Trim(s)| <= |s|
    ensures Trim(s) == s[k..k + |Trim(s)|]
  {
    k := TrimOffset(s);
    var e := k + |Trim(s)|;
    NonSpaceNotInSpaces(s, k, a);
    NonSpaceNotInTrailingSpaces(s, e, b);
  }

  lemma {:induction false} SliceKeepsNoOpen(raw: string, t: string, k: nat, a: nat)
    requires k <= a <= k + |t| <= |raw| && t == raw[k..k + |t|] && '{' !in raw[..a]
    ensures '{' !in t[..a - k]
  {
    assert t[..a - k] == raw[..a][k..];
  }

  lemma {:induction false} SliceKeepsNoClose(raw: string, t: string, k: nat, b: nat)
    requires k <= b < k + |t| <= |raw| && t == raw[k..k + |t|] && '}' !in raw[b + 1..]
    ensures '}' !in t[b - k + 1..]
  {
    assert t[b - k + 1..] == raw[b + 1..][..k + |t| - b - 1];
  }

  lemma {:induction false} SliceKeepsSpan(raw: string, t: string, k: nat, a: nat, b: nat)
    requires k <= a <= b < k + |t| <= |raw| && t == raw[k..k + |t|]
    ensures t[a - k..b - k + 1] == raw[a..b + 1]
  {
    var x, y := t[a - k..b - k + 1], raw[a..b + 1];
    assert |x| == |y|;
    assert forall i :: 0 <= i < |x| ==> x[i] == y[i];
  }

  /** A slice of `raw` that covers its outermost braces has them as its own. */
  lemma {:induction false} SliceKeepsOutermostBraces(raw: string, t: string, k: nat, a: nat, b: nat)
    requires IsOutermostBraces(raw, a, b)
    requires k <= a && b < k + |t| <= |raw| && t == raw[k..k + |t|]
    ensures IsOutermostBraces(t, a - k, b - k)
    ensures t[a - k..b - k + 1] == raw[a..b + 1]
  {
    assert t[a - k] == raw[a] && t[b - k] == raw[b];
    SliceKeepsNoOpen(raw, t, k, a);
    SliceKeepsNoClose(raw, t, k, b);
    SliceKeepsSpan(raw, t, k, a, b);
  }

  /** The outermost braces of a text are still the outermost braces once it is trimmed,
      shifted by the white space removed in front. */
  lemma {:induction false} TrimKeepsOutermostBraces(raw: string, a: nat, b: nat) returns (k: nat)
    requires IsOutermostBraces(raw, a, b)
    ensures k <= a && IsOutermostBraces(Trim(raw), a - k, b - k)
    ensures Trim(raw)[a - k..b - k + 1] == raw[a..b + 1]
  {
    k := TrimKeeps(raw, a, b);
    SliceKeepsOutermostBraces(raw, Trim(raw), k, a, b);
  }

  /** When the first `{` of `raw` precedes its last `}` and the trimmed text does not
      parse, what is parsed is the slice between them. */
  lemma {:induction false} RecoversOutermostSpan<T, E>(parse: string -> Result<T, E>, raw: string, a: nat, b: nat)
    requires IsOutermostBraces(raw, a, b)
    requires parse(Trim(raw)).Failure?
    ensures TryParseJson(parse, raw) == parse(raw[a..b + 1])
  {
    var k := TrimKeepsOutermostBraces(raw, a, b);
    RecoversOutermostSpanOfTrimmed(parse, Trim(raw), a - k, b - k, raw[a..b + 1]);
  }

  /** An object `obj` with stray text around it is recovered, provided the text before it
      holds no `{` and the text after it no `}` (a code fence, a sentence of preamble). */
  lemma {:induction false} RecoversWrappedObject<T, E>(parse: string -> Result<T, E>, prefix: string, obj: string, suffix: string)
    requires |obj| >= 2 && obj[0] == '{' && obj[|obj| - 1] == '}'
    requires '{' !in prefix && '}' !in suffix
    requires parse(Trim(prefix + obj + suffix)).Failure?
    ensures TryParseJson(parse, prefix + obj + suffix) == parse(obj)
  {
    var raw := prefix + obj + suffix;
    var a := |prefix|;
    var b := |prefix| + |obj| - 1;
    assert raw[..a] == prefix;
    assert raw[b + 1..] == suffix;
    assert raw[a..b + 1] == obj;
    RecoversOutermostSpan(parse, raw, a, b);
  }
}

=== FILE: orchestrator.dfy ===
/** `fetchNewsForTopic`: the two-tier fetch. The endpoint is the oracle `send`, which
    answers each request with an `HttpResponse`, and `JSON.parse` is the oracle `parse`,
    whose failure carries the parser's message. */
module Orchestrator {
  import opened Wrappers
  import opened Text
  import opened Types
  import opened Prompt
  import opened Envelope
  import opened JsonRecovery
  import opened Ranking

  const Model: string := "gpt-4o"
  const SystemInstruction: string :=
    "You are a precise news aggregation engine. Return only JSON that matches the schema."

  const PrimaryCounts: Counts := Counts(6, 12, 7, 5)
  const PrimaryBudget: nat := 4000
  const FallbackCounts: Counts := Counts(5, 10, 6, 4)
  const FallbackBudget: nat := 2200

  /** The parts of a request body that vary or that the model keeps: the model name,
      the output budget, the system instruction, and the topic and counts the prompt is
      filled in from. */
  datatype Request = Request(model: string, maxOutputTokens: nat, system: string, topic: string, counts: Counts)

  /** The prompt text the request body carries. */
  function PromptOf(req: Request): string {
    BuildPrompt(req.topic, req.counts)
  }

  function MakeRequest(topic: string, counts: Counts, budget: nat): Request {
    Request(Model, budget, SystemInstruction, topic, counts)
  }

  /** `requestNews`: one call and the reading of its response. */
  function RequestNews(send: Request -> HttpResponse, topic: string, counts: Counts, budget: nat): (r: Result<string, FetchError>)
    ensures r.Success? ==> r.value != []
    ensures send(MakeRequest(topic, counts, budget)).NetworkFailure? ==> r == Failure(Network)
    ensures r.Success? ==> send(MakeRequest(topic, counts, budget)).Response?
                           && IsOk(send(MakeRequest(topic, counts, budget)).status)
    ensures r.Success? ==> send(MakeRequest(topic, counts, budget)).body.Some?
                           && ExtractOutputText(send(MakeRequest(topic, counts, budget)).body.value) == Some(r.value)
  {
    InterpretResponse(send(MakeRequest(topic, counts, budget)))
  }

  /** One tier: request, recover the JSON, rank. A failure at any step fails the tier. */
  function Attempt(send: Request -> HttpResponse, parse: string -> Result<NewsFeed, string>,
                   topic: string, counts: Counts, budget: nat): (r: Result<NewsFeed, FetchError>)
    ensures r.Success? <==> RequestNews(send, topic, counts, budget).Success?
                            && TryParseJson(parse, RequestNews(send, topic, counts, budget).value).Success?
    ensures r.Success? ==> r.value == RankFeed(TryParseJson(parse, RequestNews(send, topic, counts, budget).value).value)
    ensures RequestNews(send, topic, counts, budget).Failure? ==> r == Failure(RequestNews(send, topic, counts, budget).error)
    ensures RequestNews(send, topic, counts, budget).Success?
            && TryParseJson(parse, RequestNews(send, topic, counts, budget).value).Failure?
            ==> r == Failure(Syntax(TryParseJson(parse, RequestNews(send, topic, counts, budget).value).error))
    ensures r.Failure? ==> r.error != MissingApiKey
  {
    var text := RequestNews(send, topic, counts, budget);
    if text.Failure? then Failure(text.error)
    else
      match TryParseJson(parse, text.value)
      case Failure(message) => Failure(Syntax(message))
      case Success(parsed) => Success(RankFeed(parsed))
  }

  /** The requests sent, in order, and how the call ended. */
  datatype Run = Run(requests: seq<Request>, outcome: Result<NewsFeed, FetchError>)

  /** `!apiKey`: an absent or empty key counts as missing. */
  predicate HasKey(apiKey: Option<string>) {
    apiKey.Some? && apiKey.value != []
  }

  /** `fetchNewsForTopic`. Without a key nothing is sent. Otherwise the primary request
      goes first; exactly when its tier fails, the fallback request follows, and its result,
      success or error, is the outcome. */
  function FetchNewsForTopic(apiKey: Option<string>, topic: string, send: Request -> HttpResponse,
                             parse: string -> Result<NewsFeed, string>): (r: Run)
    ensures !HasKey(apiKey) ==> r == Run([], Failure(MissingApiKey))
    ensures HasKey(apiKey) ==> 1 <= |r.requests| <= 2 && r.requests[0] == MakeRequest(topic, PrimaryCounts, PrimaryBudget)
    ensures HasKey(apiKey) ==> (|r.requests| == 2 <==> Attempt(send, parse, topic, PrimaryCounts, PrimaryBudget).Failure?)
    ensures |r.requests| == 1 ==> r.outcome == Attempt(send, parse, topic, PrimaryCounts, PrimaryBudget)
    ensures |r.requests| == 2 ==> (r.requests[1] == MakeRequest(topic, FallbackCounts, FallbackBudget)
                                   && r.outcome == Attempt(send, parse, topic, FallbackCounts, FallbackBudget))
  {
    if !HasKey(apiKey) then Run([], Failure(MissingApiKey))
    else
      var first := MakeRequest(topic, PrimaryCounts, PrimaryBudget);
      var primary := Attempt(send, parse, topic, PrimaryCounts, PrimaryBudget);
      if primary.Success? then Run([first], primary)
      else
        var second := MakeRequest(topic, FallbackCounts, FallbackBudget);
        Run([first, second], Attempt(send, parse, topic, FallbackCounts, FallbackBudget))
  }

  /** A tier that succeeds returns a feed `parse` produced from some text, ranked. */
  lemma AttemptSuccessIsRankedParse(send: Request -> HttpResponse, parse: string -> Result<NewsFeed, string>,
                                    topic: string, counts: Counts, budget: nat)
    returns (text: string)
    requires Attempt(send, parse, topic, counts, budget).Success?
    ensures parse(text).Success?
    ensures Attempt(send, parse, topic, counts, budget).value == RankFeed(parse(text).value)
  {
    var raw := RequestNews(send, topic, counts, budget).value;
    var i, j;
    i, j, text := ResultIsParseOfSlice(parse, raw);
  }

  /** A successful outcome is some parsed feed with its two lists reordered and every
      other field as parsed: the topic, the sidebar, and the same stories and river items. */
  lemma SuccessIsRankedParse(apiKey: Option<string>, topic: string, send: Request -> HttpResponse,
                             parse: string -> Result<NewsFeed, string>)
    requires FetchNewsForTopic(apiKey, topic, send, parse).outcome.Success?
    ensures var feed := FetchNewsForTopic(apiKey, topic, send, parse).outcome.value;
            exists text :: parse(text).Success?
              && feed.topic == parse(text).value.topic && feed.sidebar == parse(text).value.sidebar
              && multiset(feed.topStories) == multiset(parse(text).value.topStories)
              && multiset(feed.riverOfNews) == multiset(parse(text).value.riverOfNews)
  {
    var run := FetchNewsForTopic(apiKey, topic, send, parse);
    var text;
    if |run.requests| == 1 {
      text := AttemptSuccessIsRankedParse(send, parse, topic, PrimaryCounts, PrimaryBudget);
    } else {
      text := AttemptSuccessIsRankedParse(send, parse, topic, FallbackCounts, FallbackBudget);
    }
    var parsed := parse(text).value;
    assert run.outcome.value == RankFeed(parsed);
  }

  /** Once the primary tier succeeds the endpoint is not consulted again: two endpoints
      that agree on the primary request give the same run. */
  lemma PrimarySuccessIgnoresFallback(apiKey: Option<string>, topic: string, send: Request -> HttpResponse,
                                      send': Request -> HttpResponse, parse: string -> Result<NewsFeed, string>)
    requires HasKey(apiKey)
    requires send(MakeRequest(topic, PrimaryCounts, PrimaryBudget)) == send'(MakeRequest(topic, PrimaryCounts, PrimaryBudget))
    requires Attempt(send, parse, topic, PrimaryCounts, PrimaryBudget).Success?
    ensures FetchNewsForTopic(apiKey, topic, send', parse) == FetchNewsForTopic(apiKey, topic, send, parse)
  {
  }

  /** The fallback request differs from the primary one in its prompt as well as its
      budget: the prompt states the smaller counts. */
  lemma FallbackPromptDiffers(topic: string)
    ensures PromptOf(MakeRequest(topic, FallbackCounts, FallbackBudget)) != PromptOf(MakeRequest(topic, PrimaryCounts, PrimaryBudget))
  {
    if BuildPrompt(topic, FallbackCounts) == BuildPrompt(topic, PrimaryCounts) {
      BuildPromptDeterminesCounts(topic, FallbackCounts, PrimaryCounts);
      assert false;
    }
  }

  /** With a key, a failed run has tried both tiers and reports the fallback tier's own
      error, not a wrapper around it. */
  lemma FailureReportsFallbackError(apiKey: Option<string>, topic: string, send: Request -> HttpResponse,
                                    parse: string -> Result<NewsFeed, string>)
    requires HasKey(apiKey)
    requires FetchNewsForTopic(apiKey, topic, send, parse).outcome.Failure?
    ensures |FetchNewsForTopic(apiKey, topic, send, parse).requests| == 2
    ensures FetchNewsForTopic(apiKey, topic, send, parse).outcome == Attempt(send, parse, topic, FallbackCounts, FallbackBudget)
  {
  }
}

=== FILE: prompt.dfy ===
/** `buildPrompt`: the instruction text sent with each request, a fixed template with
    the topic and the four requested counts filled in. */
module Prompt {
  import opened Text

  /** How many entries of each list a request asks for. */
  datatype Counts = Counts(topStories: nat, riverOfNews: nat, quickLinks: nat, trendingTopics: nat)

  /** The template, cut at the places where values are filled in. It starts with a line
      break and indents every line by two spaces (five for nested items), as written. */
  const Opening: string := "\n  Perform a comprehensive web search for the latest news on the topic: \""

  const BeforeTopStories: string :=
    "\".\n\n  STRICT REQUIREMENTS:\n  1. Use ONLY actual, verified URLs found in your search results. DO NOT hallucinate or \"predict\" URLs.\n  2. Prioritize breaking news and articles from the last 24-72 hours.\n  3. Ensure the main \"source\" names match the actual publication found in the search results.\n\n  Structure the response as a JSON object with this format:\n  - \"topic\": The exact search topic.\n  - \"topStories\": "

  const BeforeRiver: string :=
    "major stories. Each must have:\n     - \"id\": A unique string.\n     - \"title\": The actual headline or a very close summary.\n     - \"summary\": 1-2 short sentences of context (<= 220 chars).\n     - \"source\": The publisher name (e.g., \"The Verge\", \"Reuters\").\n     - \"url\": The exact valid link to the article.\n     - \"timestamp\": A relative time string (e.g., \"2 hours ago\").\n     - \"relatedSources\": 2-4 other real links/sources reporting on the same story. Keep snippets <= 140 chars.\n  - \"riverOfNews\": "

  const BeforeQuickLinks: string :=
    "shorter, recent news items with title, source, and valid URL.\n  - \"sidebar\":\n     - \"quickLinks\": "

  const BeforeTrending: string :=
    "links to deep-dive analysis or official pages.\n     - \"trendingTopics\": "

  const Closing: string :=
    "related search terms for navigation.\n  If you cannot find enough results, expand the search query, but still return the exact counts above.\n  Return a single JSON object only. Do not include markdown, code fences, or trailing text.\n"

  /** Everything after the topic; each numeral is followed by a space. */
  function CountsText(c: Counts): string {
    BeforeTopStories + (NatToString(c.topStories) + (" " + BeforeRiver + (NatToString(c.riverOfNews)
      + (" " + BeforeQuickLinks + (NatToString(c.quickLinks) + (" " + BeforeTrending + (NatToString(c.trendingTopics)
      + (" " + Closing))))))))
  }

  /** The prompt for `topic` and `counts`: the topic appears verbatim, in quotes, right
      after the fixed opening, and what follows depends on the counts alone. */
  function BuildPrompt(topic: string, counts: Counts): (r: string)
    ensures |r| == |Opening| + |topic| + |CountsText(counts)|
    ensures r[..|Opening|] == Opening
    ensures r[|Opening|..|Opening| + |topic|] == topic
    ensures r[|Opening| + |topic|..] == CountsText(counts)
  {
    var r := Opening + topic + CountsText(counts);
    assert r[..|Opening|] == Opening;
    assert r[|Opening|..|Opening| + |topic|] == topic;
    assert r[|Opening| + |topic|..] == CountsText(counts);
    r
  }

  predicate StartsWithNonDigit(s: string) {
    |s| > 0 && !IsDigit(s[0])
  }

  lemma PrefixCancel(a: string, x: string, y: string)
    requires a + x == a + y
    ensures x == y
  {
    assert x == (a + x)[|a|..];
    assert y == (a + y)[|a|..];
  }

  /** In `d + x == d' + x'` with `d'` all digits and `x` starting with a non-digit, the
      digits `d'` cannot run past `d`. */
  lemma NumeralLengthBound(d: string, x: string, d': string, x': string)
    requires StartsWithNonDigit(x)
    requires forall i :: 0 <= i < |d'| ==> IsDigit(d'[i])
    requires d + x == d' + x'
    ensures |d'| <= |d|
  {
    var s := d + x;
    assert !IsDigit(s[|d|]);
    assert forall i :: 0 <= i < |d'| ==> IsDigit(s[i]);
  }

  /** A numeral directly followed by a non-digit can be read back unambiguously. */
  lemma NumeralSplit(n: nat, x: string, n': nat, x': string)
    requires StartsWithNonDigit(x) && StartsWithNonDigit(x')
    requires NatToString(n) + x == NatToString(n') + x'
    ensures n == n' && x == x'
  {
    var d, d' := NatToString(n), NatToString(n');
    NumeralLengthBound(d, x, d', x');
    NumeralLengthBound(d', x', d, x);
    assert d == (d + x)[..|d|] && d' == (d' + x')[..|d'|];
    assert x == (d + x)[|d|..] && x' == (d' + x')[|d'|..];
    DecimalValueOfNatToString(n);
    DecimalValueOfNatToString(n');
  }

  /** Different counts give different prompt texts. */
  lemma {:induction false} CountsTextInjective(c: Counts, c': Counts)
    requires CountsText(c) == CountsText(c')
    ensures c == c'
  {
    var tail4 := " " + Closing;
    var tail3 := " " + BeforeTrending + (NatToString(c.trendingTopics) + tail4);
    var tail3' := " " + BeforeTrending + (NatToString(c'.trendingTopics) + tail4);
    var tail2 := " " + BeforeQuickLinks + (NatToString(c.quickLinks) + tail3);
    var tail2' := " " + BeforeQuickLinks + (NatToString(c'.quickLinks) + tail3');
    var tail1 := " " + BeforeRiver + (NatToString(c.riverOfNews) + tail2);
    var tail1' := " " + BeforeRiver + (NatToString(c'.riverOfNews) + tail2');
    PrefixCancel(BeforeTopStories, NatToString(c.topStories) + tail1, NatToString(c'.topStories) + tail1');
    NumeralSplit(c.topStories, tail1, c'.topStories, tail1');
    PrefixCancel(" " + BeforeRiver, NatToString(c.riverOfNews) + tail2, NatToString(c'.riverOfNews) + tail2');
    NumeralSplit(c.riverOfNews, tail2, c'.riverOfNews, tail2');
    PrefixCancel(" " + BeforeQuickLinks, NatToString(c.quickLinks) + tail3, NatToString(c'.quickLinks) + tail3');
    NumeralSplit(c.quickLinks, tail3, c'.quickLinks, tail3');
    PrefixCancel(" " + BeforeTrending, NatToString(c.trendingTopics) + tail4, NatToString(c'.trendingTopics) + tail4);
    NumeralSplit(c.trendingTopics, tail4, c'.trendingTopics, tail4);
  }

  /** For one topic, the prompt determines the counts it asks for. */
  lemma BuildPromptDeterminesCounts(topic: string, c: Counts, c': Counts)
    requires BuildPrompt(topic, c) == BuildPrompt(topic, c')
    ensures c == c'
  {
    CountsTextInjective(c, c');
  }
}

=== FILE: ranking.dfy ===
/** Ranking of a parsed feed: top stories by their own freshness and publisher, river
    items by their publisher and the timestamp of the top story at the same position. */
module Ranking {
  import opened Types
  import opened Scoring
  import opened StableSort
  import opened RelativeTime

  /** A story's scaled score. Its timestamp is mandatory, so the source's `?? ""`
      fallback does not arise. */
  function StoryScore(s: NewsStory): int {
    ScoreItem(s.timestamp, s.source)
  }

  /** `sortByFreshAndAuthority` on the top stories: a stable sort into non-increasing
      score order, on a copy. */
  function SortByFreshAndAuthority(stories: seq<NewsStory>): (r: seq<NewsStory>)
    ensures IsStableSortOf(r, stories, StoryScore)
    ensures multiset(r) == multiset(stories)
    ensures forall i, j :: 0 <= i < j < |r| ==> StoryScore(r[i]) >= StoryScore(r[j])
  {
    SortDescending(stories, StoryScore)
  }

  /** `timestamps[index] ?? ""`. */
  function TimestampAt(timestamps: seq<string>, i: nat): string {
    if i < |timestamps| then timestamps[i] else ""
  }

  /** River item `i` paired with the score it is ranked by: its own publisher and the
      `i`-th timestamp, or unknown age when there is none. */
  function RiverScores(items: seq<RelatedSource>, timestamps: seq<string>): (r: seq<Scored<RelatedSource>>)
    ensures |r| == |items|
    ensures forall i :: 0 <= i < |items| ==>
              r[i].item == items[i] && r[i].score == ScoreItem(TimestampAt(timestamps, i), items[i].source)
  {
    seq(|items|, i requires 0 <= i < |items| =>
      Scored(items[i], ScoreItem(TimestampAt(timestamps, i), items[i].source)))
  }

  /** `sortRiverByFreshAndAuthority`: the river items, each scored at its original
      position, in a stable non-increasing order of those scores. */
  function SortRiverByFreshAndAuthority(items: seq<RelatedSource>, timestamps: seq<string>): (r: seq<RelatedSource>)
    ensures multiset(r) == multiset(items)
    ensures exists ranked :: IsStableSortOf(ranked, RiverScores(items, timestamps), ScoreOf) && r == Items(ranked)
  {
    var scored := RiverScores(items, timestamps);
    var ranked := SortDescending(scored, ScoreOf);
    SortedItemsPermutation(scored, ScoreOf);
    assert Items(scored) == items;
    Items(ranked)
  }

  /** `parsed.topStories.map((s) => s.timestamp)`. */
  function Timestamps(stories: seq<NewsStory>): (r: seq<string>)
    ensures |r| == |stories|
    ensures forall i :: 0 <= i < |stories| ==> r[i] == stories[i].timestamp
  {
    seq(|stories|, i requires 0 <= i < |stories| => stories[i].timestamp)
  }

  /** The feed handed back by a successful tier: everything as parsed except the two
      reordered lists; the river borrows the timestamps of the top stories as parsed,
      before they are sorted. */
  function RankFeed(parsed: NewsFeed): (r: NewsFeed)
    ensures r.topic == parsed.topic && r.sidebar == parsed.sidebar
    ensures IsStableSortOf(r.topStories, parsed.topStories, StoryScore)
    ensures multiset(r.topStories) == multiset(parsed.topStories)
    ensures multiset(r.riverOfNews) == multiset(parsed.riverOfNews)
    ensures exists ranked :: IsStableSortOf(ranked, RiverScores(parsed.riverOfNews, Timestamps(parsed.topStories)), ScoreOf)
                             && r.riverOfNews == Items(ranked)
  {
    parsed.(topStories := SortByFreshAndAuthority(parsed.topStories),
            riverOfNews := SortRiverByFreshAndAuthority(parsed.riverOfNews, Timestamps(parsed.topStories)))
  }

  /** Sorting the top stories is idempotent. */
  lemma SortByFreshAndAuthorityIdempotent(stories: seq<NewsStory>)
    ensures SortByFreshAndAuthority(SortByFreshAndAuthority(stories)) == SortByFreshAndAuthority(stories)
  {
    SortDescendingIdempotent(stories, StoryScore);
  }

  /** Any stable non-increasing arrangement of the stories is the one produced, whatever
      stable algorithm the JavaScript engine uses. */
  lemma SortByFreshAndAuthorityUnique(stories: seq<NewsStory>, r: seq<NewsStory>)
    requires IsStableSortOf(r, stories, StoryScore)
    ensures r == SortByFreshAndAuthority(stories)
  {
    StableSortIsSortDescending(r, stories, StoryScore);
  }

  /** River items beyond the last top story are ranked as of unknown age. */
  lemma RiverBeyondTimestampsIsUnknownAge(items: seq<RelatedSource>, timestamps: seq<string>, i: nat)
    requires |timestamps| <= i < |items|
    ensures RiverScores(items, timestamps)[i].score == -Boost(items[i].source)
  {
    assert TimestampAt(timestamps, i) == "";
    assert Normalize("") == "";
  }
}

=== FILE: relative_time.dfy ===
/** The relative-age parser used for ranking: `parseRelativeMinutes` looks for the
    leftmost match of `(\d+)\s*(minute|hour|day|week|month|year)s?\s*ago` in the
    lower-cased, trimmed timestamp and converts it to minutes. */
module RelativeTime {
  import opened Wrappers
  import opened Text

  datatype Unit = Minute | Hour | Day | Week | Month | Year

  function UnitName(u: Unit): string {
    match u
    case Minute => "minute"
    case Hour => "hour"
    case Day => "day"
    case Week => "week"
    case Month => "month"
    case Year => "year"
  }

  /** Fixed minutes-per-unit table. */
  function MinutesPer(u: Unit): nat {
    match u
    case Minute => 1
    case Hour => 60
    case Day => 1440
    case Week => 10080
    case Month => 43200
    case Year => 525600
  }

  /** `amount * minutesByUnit[unit]`. */
  function InMinutes(amount: nat, u: Unit): nat {
    amount * MinutesPer(u)
  }

  /** An age in minutes, or `Unknown` for the source's `Number.POSITIVE_INFINITY`. */
  datatype Age = Minutes(minutes: nat) | Unknown

  /** What the regular expression captures: the digit run and the unit. */
  datatype Capture = Capture(digits: string, unit: Unit)

  /** Where the leftmost match starts, and what it captured. */
  datatype Found = Found(pos: nat, capture: Capture)

  predicate HasAt(s: string, i: nat, w: string) {
    i + |w| <= |s| && s[i..i + |w|] == w
  }

  predicate DigitsBetween(s: string, i: nat, j: nat)
    requires i <= j <= |s|
  {
    forall k :: i <= k < j ==> IsDigit(s[k])
  }

  predicate SpacesBetween(s: string, i: nat, j: nat)
    requires i <= j <= |s|
  {
    forall k :: i <= k < j ==> IsSpace(s[k])
  }

  /** Where a greedy `\d+` / `\d*` starting at `i` stops. */
  function DigitRunEnd(s: string, i: nat): (j: nat)
    requires i <= |s|
    ensures i <= j <= |s|
    ensures DigitsBetween(s, i, j)
    ensures j < |s| ==> !IsDigit(s[j])
    decreases |s| - i
  {
    if i < |s| && IsDigit(s[i]) then DigitRunEnd(s, i + 1) else i
  }

  /** Where a greedy `\s*` starting at `i` stops. */
  function SpaceRunEnd(s: string, i: nat): (j: nat)
    requires i <= |s|
    ensures i <= j <= |s|
    ensures SpacesBetween(s, i, j)
    ensures j < |s| ==> !IsSpace(s[j])
    decreases |s| - i
  {
    if i < |s| && IsSpace(s[i]) then SpaceRunEnd(s, i + 1) else i
  }

  /** The alternation `(minute|hour|day|week|month|year)`, tried in that order. */
  function UnitAt(s: string, i: nat): (r: Option<Unit>)
    ensures r.Some? ==> HasAt(s, i, UnitName(r.value))
    ensures r.None? ==> forall u :: !HasAt(s, i, UnitName(u))
  {
    if HasAt(s, i, "minute") then Some(Minute)
    else if HasAt(s, i, "hour") then Some(Hour)
    else if HasAt(s, i, "day") then Some(Day)
    else if HasAt(s, i, "week") then Some(Week)
    else if HasAt(s, i, "month") then Some(Month)
    else if HasAt(s, i, "year") then Some(Year)
    else None
  }

  /** The optional plural `s` after a unit name ending at `v`. */
  function PluralEnd(s: string, v: nat): (x: nat)
    ensures v <= x <= v + 1
    ensures x == v + 1 ==> v < |s| && s[v] == 's'
  {
    if v < |s| && s[v] == 's' then v + 1 else v
  }

  /** The rest of the regular expression once the digit run `s[p..q]` is taken. */
  function MatchFromRun(s: string, p: nat, q: nat): Option<Capture>
    requires p <= q <= |s|
  {
    var w := SpaceRunEnd(s, q);
    match UnitAt(s, w)
    case None => None
    case Some(u) =>
      var x := PluralEnd(s, w + |UnitName(u)|);
      if HasAt(s, SpaceRunEnd(s, x), "ago") then Some(Capture(s[p..q], u)) else None
  }

  /** The regular expression anchored at `p`. Backtracking cannot change the outcome:
      every optional or repeated part is followed by a character it cannot consume. */
  function MatchAt(s: string, p: nat): Option<Capture>
    requires p <= |s|
  {
    if p == |s| || !IsDigit(s[p]) then None
    else MatchFromRun(s, p, DigitRunEnd(s, p))
  }

  /** `String.prototype.match` without the global flag: the leftmost start at or after `p`. */
  function FirstMatchFrom(s: string, p: nat): (r: Option<Found>)
    requires p <= |s|
    ensures r.Some? ==> p <= r.value.pos < |s| && MatchAt(s, r.value.pos) == Some(r.value.capture)
    ensures r.Some? ==> forall k :: p <= k < r.value.pos ==> MatchAt(s, k).None?
    ensures r.None? ==> forall k :: p <= k <= |s| ==> MatchAt(s, k).None?
    decreases |s| - p
  {
    if p == |s| then None
    else
      match MatchAt(s, p)
      case Some(c) => Some(Found(p, c))
      case None => FirstMatchFrom(s, p + 1)
  }

  /** The text the regular expression is run on: `timestamp.toLowerCase().trim()`, which is
      `Lower(Trim(ts))` by `LowerTrimCommute`. */
  function Normalize(ts: string): string {
    Lower(Trim(ts))
  }

  /** The age read from already-normalised text. */
  function AgeOf(s: string): Age {
    match FirstMatchFrom(s, 0)
    case None => Unknown
    case Some(f) => Minutes(InMinutes(DecimalValue(f.capture.digits), f.capture.unit))
  }

  /** `parseRelativeMinutes`. */
  function ParseRelativeMinutes(ts: string): Age {
    AgeOf(Normalize(ts))
  }

  // ---------------------------------------------------------------------------
  // Declarative meaning of the regular expression

  /** The positions a successful match passes through: the digit run is `s[p..q]`,
      the unit starts at `w`, the optional plural `s` ends at `x`, "ago" starts at `y`. */
  datatype Split = Split(q: nat, w: nat, u: Unit, x: nat, y: nat)

  /** `s[p..]` starts with a word of the language
      `[0-9]+ \s* (minute|hour|day|week|month|year) s? \s* ago`, decomposed as `m`. */
  ghost predicate IsMatch(s: string, p: nat, m: Split) {
    && p < m.q <= m.w <= |s|
    && DigitsBetween(s, p, m.q)
    && SpacesBetween(s, m.q, m.w)
    && HasAt(s, m.w, UnitName(m.u))
    && m.w + |UnitName(m.u)| <= m.x <= m.w + |UnitName(m.u)| + 1
    && m.x <= m.y <= |s|
    && (m.x == m.w + |UnitName(m.u)| + 1 ==> s[m.x - 1] == 's')
    && SpacesBetween(s, m.x, m.y)
    && HasAt(s, m.y, "ago")
  }

  ghost predicate NoMatch(s: string) {
    forall p, m :: !IsMatch(s, p, m)
  }

  ghost predicate IsLeftmostMatch(s: string, p: nat, m: Split) {
    IsMatch(s, p, m) && forall p': nat, m' :: p' < p ==> !IsMatch(s, p', m')
  }

  /** At any position at most one unit name fits: none is a prefix of another. */
  lemma {:induction false} UnitNamesExclusive(s: string, i: nat, u: Unit, u': Unit)
    requires HasAt(s, i, UnitName(u)) && HasAt(s, i, UnitName(u'))
    ensures u == u'
  {
    assert s[i] == UnitName(u)[0] == UnitName(u')[0] by {
      assert s[i..i + |UnitName(u)|][0] == s[i];
      assert s[i..i + |UnitName(u')|][0] == s[i];
    }
    assert s[i + 1] == UnitName(u)[1] == UnitName(u')[1] by {
      assert s[i..i + |UnitName(u)|][1] == s[i + 1];
      assert s[i..i + |UnitName(u')|][1] == s[i + 1];
    }
  }

  lemma {:induction false} FirstCharOf(s: string, i: nat, w: string)
    requires HasAt(s, i, w) && |w| > 0
    ensures i < |s| && s[i] == w[0]
  {
    assert s[i..i + |w|][0] == s[i];
  }

  lemma DigitRunEndIs(s: string, i: nat, j: nat)
    requires i <= j <= |s| && DigitsBetween(s, i, j) && (j < |s| ==> !IsDigit(s[j]))
    ensures DigitRunEnd(s, i) == j
    decreases j - i
  {
    if i < j {
      DigitRunEndIs(s, i + 1, j);
    }
  }

  lemma SpaceRunEndIs(s: string, i: nat, j: nat)
    requires i <= j <= |s| && SpacesBetween(s, i, j) && (j < |s| ==> !IsSpace(s[j]))
    ensures SpaceRunEnd(s, i) == j
    decreases j - i
  {
    if i < j {
      SpaceRunEndIs(s, i + 1, j);
    }
  }

  lemma {:induction false} MatchedUnitIsFound(s: string, p: nat, m: Split)
    requires IsMatch(s, p, m)
    ensures UnitAt(s, m.w) == Some(m.u)
  {
    var r := UnitAt(s, m.w);
    assert HasAt(s, m.w, UnitName(m.u));
    assert r.Some?;
    UnitNamesExclusive(s, m.w, r.value, m.u);
  }

  /** The optional plural `s` is taken exactly when it is present. */
  lemma {:induction false} MatchedPluralIsGreedy(s: string, p: nat, m: Split)
    requires IsMatch(s, p, m)
    ensures m.x == PluralEnd(s, m.w + |UnitName(m.u)|)
  {
    var v := m.w + |UnitName(m.u)|;
    FirstCharOf(s, m.y, "ago");
  }

  /** `MatchAt` read off from where its greedy runs stop. */
  lemma {:induction false} MatchAtFromRuns(s: string, p: nat, q: nat, w: nat, u: Unit, x: nat, y: nat)
    requires p < |s| && IsDigit(s[p])
    requires DigitRunEnd(s, p) == q && SpaceRunEnd(s, q) == w && UnitAt(s, w) == Some(u)
    requires x == PluralEnd(s, w + |UnitName(u)|)
    requires x <= |s| && SpaceRunEnd(s, x) == y && HasAt(s, y, "ago")
    ensures MatchAt(s, p) == Some(Capture(s[p..q], u))
  {
    MatchFromRunOf(s, p, q, w, u, x, y);
    assert MatchAt(s, p) == MatchFromRun(s, p, q);
  }

  lemma {:induction false} MatchFromRunOf(s: string, p: nat, q: nat, w: nat, u: Unit, x: nat, y: nat)
    requires p <= q <= |s|
    requires SpaceRunEnd(s, q) == w && UnitAt(s, w) == Some(u)
    requires x == PluralEnd(s, w + |UnitName(u)|)
    requires x <= |s| && SpaceRunEnd(s, x) == y && HasAt(s, y, "ago")
    ensures MatchFromRun(s, p, q) == Some(Capture(s[p..q], u))
  {
    var w' := SpaceRunEnd(s, q);
    var x' := PluralEnd(s, w' + |UnitName(u)|);
    assert w' == w && x' == x && SpaceRunEnd(s, x') == y;
  }

  /** The digit run of a match is maximal. */
  lemma {:induction false} MatchedDigitRunIsGreedy(s: string, p: nat, m: Split)
    requires IsMatch(s, p, m)
    ensures DigitRunEnd(s, p) == m.q
  {
    FirstCharOf(s, m.w, UnitName(m.u));
    assert !IsDigit(s[m.q]) by {
      if m.q < m.w {
        assert IsSpace(s[m.q]);
      }
    }
    DigitRunEndIs(s, p, m.q);
  }

  /** Both white-space runs of a match are maximal. */
  lemma {:induction false} MatchedSpaceRunsAreGreedy(s: string, p: nat, m: Split)
    requires IsMatch(s, p, m)
    ensures SpaceRunEnd(s, m.q) == m.w && SpaceRunEnd(s, m.x) == m.y
  {
    FirstCharOf(s, m.w, UnitName(m.u));
    SpaceRunEndIs(s, m.q, m.w);
    FirstCharOf(s, m.y, "ago");
    SpaceRunEndIs(s, m.x, m.y);
  }

  /** Every decomposition of a match at `p` is the one the deterministic matcher finds. */
  lemma {:induction false} MatchAtComplete(s: string, p: nat, m: Split)
    requires IsMatch(s, p, m)
    ensures MatchAt(s, p) == Some(Capture(s[p..m.q], m.u))
  {
    assert IsDigit(s[p]);
    MatchedDigitRunIsGreedy(s, p, m);
    MatchedSpaceRunsAreGreedy(s, p, m);
    MatchedUnitIsFound(s, p, m);
    MatchedPluralIsGreedy(s, p, m);
    MatchAtFromRuns(s, p, m.q, m.w, m.u, m.x, m.y);
  }

  /** What a successful `MatchFromRun` has checked. */
  lemma {:induction false} MatchFromRunChecked(s: string, p: nat, q: nat) returns (w: nat, u: Unit, x: nat, y: nat)
    requires p <= q <= |s| && MatchFromRun(s, p, q).Some?
    ensures w == SpaceRunEnd(s, q) && UnitAt(s, w) == Some(u) && HasAt(s, w, UnitName(u))
    ensures x == PluralEnd(s, w + |UnitName(u)|) && x <= |s| && y == SpaceRunEnd(s, x)
    ensures HasAt(s, y, "ago") && MatchFromRun(s, p, q) == Some(Capture(s[p..q], u))
  {
    w := SpaceRunEnd(s, q);
    u := UnitAt(s, w).value;
    x := PluralEnd(s, w + |UnitName(u)|);
    y := SpaceRunEnd(s, x);
  }

  /** What the deterministic matcher finds is a genuine decomposition, returned as `m`. */
  lemma {:induction false} MatchAtSound(s: string, p: nat) returns (m: Split)
    requires p <= |s| && MatchAt(s, p).Some?
    ensures IsMatch(s, p, m) && MatchAt(s, p) == Some(Capture(s[p..m.q], m.u))
  {
    var q := DigitRunEnd(s, p);
    assert IsDigit(s[p]) && MatchAt(s, p) == MatchFromRun(s, p, q);
    assert p < q by {
      assert DigitRunEnd(s, p) == DigitRunEnd(s, p + 1);
    }
    var w, u, x, y := MatchFromRunChecked(s, p, q);
    m := Split(q, w, u, x, y);
    assert DigitsBetween(s, p, q) && SpacesBetween(s, q, w) && SpacesBetween(s, x, y);
  }

  /** The leftmost match at `p` with decomposition `m` is where `FirstMatchFrom` stops. */
  lemma {:induction false} FirstMatchFindsLeftmost(s: string, p: nat, m: Split)
    requires IsLeftmostMatch(s, p, m)
    ensures FirstMatchFrom(s, 0) == Some(Found(p, Capture(s[p..m.q], m.u)))
  {
    MatchAtComplete(s, p, m);
    var r := FirstMatchFrom(s, 0);
    assert r.Some? && r.value.pos <= p;
    if r.value.pos < p {
      var m' := MatchAtSound(s, r.value.pos);
      assert false;
    }
  }

  /** The leftmost match at `p` with decomposition `m` is what `FirstMatchFrom` reports,
      and it determines the age. */
  lemma {:induction false} FirstMatchIsLeftmost(s: string, p: nat, m: Split)
    requires IsLeftmostMatch(s, p, m)
    ensures FirstMatchFrom(s, 0) == Some(Found(p, Capture(s[p..m.q], m.u)))
    ensures AgeOf(s) == Minutes(InMinutes(DecimalValue(s[p..m.q]), m.u))
  {
    FirstMatchFindsLeftmost(s, p, m);
  }

  /** `parseRelativeMinutes` returns infinity exactly when the normalised timestamp
      contains no match anywhere. */
  lemma ParseUnknownIffNoMatch(ts: string)
    ensures ParseRelativeMinutes(ts).Unknown? <==> NoMatch(Normalize(ts))
  {
    var s := Normalize(ts);
    var r := FirstMatchFrom(s, 0);
    if r.None? {
      forall p, m | IsMatch(s, p, m)
        ensures false
      {
        MatchAtComplete(s, p, m);
      }
    } else {
      var m := MatchAtSound(s, r.value.pos);
    }
  }

  /** Normalising is idempotent, so the age depends only on the lower-cased, trimmed text:
      case and surrounding white space never change it. */
  lemma ParseIgnoresCaseAndPadding(ts: string)
    ensures Normalize(Normalize(ts)) == Normalize(ts)
    ensures ParseRelativeMinutes(Normalize(ts)) == ParseRelativeMinutes(ts)
  {
    var t := Trim(ts);
    TrimTrimmed(t);
    LowerKeepsTrimmed(t);
    TrimTrimmed(Lower(t));
    LowerIdempotent(t);
  }

  /** When the normalised timestamp has a match, the age is the whole digit run of the
      leftmost match times the minutes of its unit. */
  lemma {:induction false} ParseTakesLeftmostMatch(ts: string, p: nat, m: Split)
    requires IsLeftmostMatch(Normalize(ts), p, m)
    ensures ParseRelativeMinutes(ts) == Minutes(InMinutes(DecimalValue(Normalize(ts)[p..m.q]), m.u))
  {
    FirstMatchIsLeftmost(Normalize(ts), p, m);
  }

  /** The leftmost match always captures a whole run of digits: the character before
      it, if any, is not a digit. */
  lemma {:induction false} LeftmostMatchTakesWholeDigitRun(s: string, p: nat, m: Split)
    requires IsLeftmostMatch(s, p, m)
    ensures p > 0 ==> !IsDigit(s[p - 1])
  {
    if p > 0 && IsDigit(s[p - 1]) {
      MatchExtendsLeft(s, p, m);
      assert false;
    }
  }

  /** A digit just before a match start gives a match one position earlier. */
  lemma {:induction false} MatchExtendsLeft(s: string, p: nat, m: Split)
    requires IsMatch(s, p, m) && 0 < p && IsDigit(s[p - 1])
    ensures IsMatch(s, p - 1, m)
  {
  }

  /** A phrase in the form the prompt asks the generator for: "2 hours ago", "1 day ago". */
  function Phrase(amount: nat, u: Unit, plural: bool): string {
    NatToString(amount) + " " + UnitName(u) + (if plural then "s" else "") + " ago"
  }

  lemma {:induction false} NoUpperAppend(a: string, b: string)
    requires NoUpper(a) && NoUpper(b)
    ensures NoUpper(a + b)
  {
    forall i | 0 <= i < |a + b|
      ensures !IsUpper((a + b)[i])
    {
      if i >= |a| {
        assert (a + b)[i] == b[i - |a|];
      }
    }
  }

  lemma UnitNameNoUpper(u: Unit)
    ensures NoUpper(UnitName(u))
  {
  }

  lemma {:induction false} PhraseIsNormal(amount: nat, u: Unit, plural: bool)
    ensures Normalize(Phrase(amount, u, plural)) == Phrase(amount, u, plural)
  {
    var d := NatToString(amount);
    var name := UnitName(u);
    var pl := if plural then "s" else "";
    var s := Phrase(amount, u, plural);
    assert s == d + " " + name + pl + " ago";
    assert IsTrimmed(s) by {
      assert s[0] == d[0];
      assert s[|s| - 1] == 'o';
    }
    TrimTrimmed(s);
    UnitNameNoUpper(u);
    NoUpperAppend(d, " ");
    NoUpperAppend(d + " ", name);
    NoUpperAppend(d + " " + name, pl);
    NoUpperAppend(d + " " + name + pl, " ago");
    LowerNoUpper(s);
  }

  /** Where the pieces of `d + " " + name + pl + " ago"` sit. */
  lemma {:induction false} PhraseLayout(d: string, name: string, pl: string)
    ensures var s := d + " " + name + pl + " ago";
            && |s| == |d| + |name| + |pl| + 5
            && s[..|d|] == d
            && s[|d|] == ' '
            && HasAt(s, |d| + 1, name)
            && (|pl| == 1 ==> s[|d| + 1 + |name|] == pl[0])
            && s[|d| + 1 + |name| + |pl|] == ' '
            && HasAt(s, |d| + 2 + |name| + |pl|, "ago")
  {
    var s := d + " " + name + pl + " ago";
    var tail := pl + " ago";
    assert s == (d + " ") + name + tail;
    HasAtJoin(d + " ", name, tail);
    assert s[|d| + 2 + |name| + |pl|..] == "ago";
  }

  lemma {:induction false} SingleSpace(s: string, i: nat)
    requires i < |s| && s[i] == ' '
    ensures SpacesBetween(s, i, i + 1)
  {
  }

  lemma {:induction false} PrefixDigits(s: string, d: string)
    requires |d| <= |s| && s[..|d|] == d
    requires forall k :: 0 <= k < |d| ==> IsDigit(d[k])
    ensures DigitsBetween(s, 0, |d|)
  {
    forall k | 0 <= k < |d|
      ensures IsDigit(s[k])
    {
      assert s[k] == s[..|d|][k];
    }
  }

  lemma {:induction false} HasAtJoin(a: string, w: string, b: string)
    ensures HasAt(a + w + b, |a|, w)
  {
    assert (a + w + b)[|a|..|a| + |w|] == w;
  }

  /** How the regular expression decomposes a phrase. */
  function PhraseSplit(amount: nat, u: Unit, plural: bool): Split {
    var d := |NatToString(amount)|;
    var x := d + 1 + |UnitName(u)| + (if plural then 1 else 0);
    Split(d, d + 1, u, x, x + 1)
  }

  lemma {:induction false} PhraseMatchesAtStart(amount: nat, u: Unit, plural: bool)
    ensures IsLeftmostMatch(Phrase(amount, u, plural), 0, PhraseSplit(amount, u, plural))
    ensures Phrase(amount, u, plural)[0..PhraseSplit(amount, u, plural).q] == NatToString(amount)
  {
    var d := NatToString(amount);
    var name := UnitName(u);
    var pl := if plural then "s" else "";
    var s := Phrase(amount, u, plural);
    var m := PhraseSplit(amount, u, plural);
    assert s == d + " " + name + pl + " ago";
    PhraseLayout(d, name, pl);
    PrefixDigits(s, d);
    SingleSpace(s, |d|);
    SingleSpace(s, |d| + 1 + |name| + |pl|);
    assert IsMatch(s, 0, m);
  }

  /** Such a phrase parses back to its amount in minutes. */
  lemma {:induction false} ParsePhrase(amount: nat, u: Unit, plural: bool)
    ensures ParseRelativeMinutes(Phrase(amount, u, plural)) == Minutes(InMinutes(amount, u))
  {
    var s := Phrase(amount, u, plural);
    var m := PhraseSplit(amount, u, plural);
    PhraseIsNormal(amount, u, plural);
    PhraseMatchesAtStart(amount, u, plural);
    FirstMatchIsLeftmost(s, 0, m);
    DecimalValueOfNatToString(amount);
  }
}

=== FILE: scoring.dfy ===
/** `scoreItem`: freshness plus a flat boost for curated publishers. The source computes
    `-(minutes / 100000) + boost` in floating point with `boost` 0.15 or 0; here every
    score is multiplied by 100000, which makes it an exact integer and keeps the order. */
module Scoring {
  import opened Text
  import opened RelativeTime

  /** 0.15, scaled. */
  const AuthorityBoost: int := 15000

  /** The curated publishers, as normalised (trimmed, lower-cased) names. */
  const AuthoritySources: set<string> := {
    "reuters",
    "associated press",
    "ap",
    "bloomberg",
    "financial times",
    "the wall street journal",
    "wall street journal",
    "wsj",
    "the new york times",
    "new york times",
    "the washington post",
    "washington post",
    "the guardian",
    "bbc",
    "bbc news",
    "npr",
    "the economist",
    "al jazeera",
    "the verge",
    "wired",
    "arstechnica",
    "techcrunch"
  }

  /** Membership is tested on `source.toLowerCase().trim()`, which is `Lower(Trim(source))`
      by `LowerTrimCommute`. */
  predicate IsAuthority(source: string) {
    Lower(Trim(source)) in AuthoritySources
  }

  function Boost(source: string): int {
    if IsAuthority(source) then AuthorityBoost else 0
  }

  /** The scaled score of an item of the given age and publisher. */
  function ScoreAge(age: Age, source: string): int {
    match age
    case Unknown => -Boost(source)
    case Minutes(n) => Boost(source) - n
  }

  /** The source's formula, evaluated exactly over the reals. */
  function SourceFormula(age: Age, source: string): real {
    var boost := if IsAuthority(source) then 0.15 else 0.0;
    match age
    case Unknown => -boost
    case Minutes(n) => -(n as real / 100000.0) + boost
  }

  /** `scoreItem(timestamp, source)`, multiplied by 100000. */
  function ScoreItem(timestamp: string, source: string): (r: int)
    ensures r as real == 100000.0 * SourceFormula(ParseRelativeMinutes(timestamp), source)
  {
    ScoreIsScaledFormula(ParseRelativeMinutes(timestamp), source);
    ScoreAge(ParseRelativeMinutes(timestamp), source)
  }

  /** The integer score is exactly 100000 times the source's formula. */
  lemma ScoreIsScaledFormula(age: Age, source: string)
    ensures ScoreAge(age, source) as real == 100000.0 * SourceFormula(age, source)
  {
  }

  /** At a fixed publisher, a strictly older known age scores strictly lower. */
  lemma FresherScoresHigher(newer: string, older: string, source: string)
    requires ParseRelativeMinutes(newer).Minutes? && ParseRelativeMinutes(older).Minutes?
    requires ParseRelativeMinutes(newer).minutes < ParseRelativeMinutes(older).minutes
    ensures ScoreItem(newer, source) > ScoreItem(older, source)
  {
  }

  /** At equal age a curated publisher scores exactly the boost above a non-curated one. */
  lemma CuratedBoostAtEqualAge(timestamp: string, curated: string, other: string)
    requires IsAuthority(curated) && !IsAuthority(other)
    requires ParseRelativeMinutes(timestamp).Minutes?
    ensures ScoreItem(timestamp, curated) == ScoreItem(timestamp, other) + AuthorityBoost
  {
  }

  /** Curated against non-curated with known ages: the curated item ranks higher exactly
      when it is less than 15000 minutes (about ten and a half days) older. */
  lemma AuthorityOutweighsModestAgeGap(ts1: string, curated: string, ts2: string, other: string)
    requires IsAuthority(curated) && !IsAuthority(other)
    requires ParseRelativeMinutes(ts1).Minutes? && ParseRelativeMinutes(ts2).Minutes?
    ensures ScoreItem(ts1, curated) > ScoreItem(ts2, other)
            <==> ParseRelativeMinutes(ts1).minutes < ParseRelativeMinutes(ts2).minutes + AuthorityBoost
  {
  }

  /** The unknown-age quirk: a non-curated item of unknown age scores 0, the same as a
      non-curated item "0 minutes ago", and above every non-curated item of positive age. */
  lemma UnknownAgeNonCurated(unknown: string, known: string, source: string, other: string)
    requires ParseRelativeMinutes(unknown).Unknown?
    requires !IsAuthority(source) && !IsAuthority(other)
    ensures ScoreItem(unknown, source) == 0
    ensures ParseRelativeMinutes(known) == Minutes(0) ==> ScoreItem(known, other) == 0
    ensures ParseRelativeMinutes(known).Minutes? && ParseRelativeMinutes(known).minutes > 0
            ==> ScoreItem(unknown, source) > ScoreItem(known, other)
  {
  }

  /** A curated item of unknown age scores below a non-curated item of unknown age. */
  lemma UnknownAgeCurated(ts1: string, curated: string, ts2: string, other: string)
    requires ParseRelativeMinutes(ts1).Unknown? && ParseRelativeMinutes(ts2).Unknown?
    requires IsAuthority(curated) && !IsAuthority(other)
    ensures ScoreItem(ts1, curated) == -AuthorityBoost
    ensures ScoreItem(ts1, curated) < ScoreItem(ts2, other)
  {
  }

  lemma TenHoursAgo()
    ensures ParseRelativeMinutes("10 hours ago") == Minutes(600)
  {
    assert NatToString(1) == "1";
    assert Phrase(10, Hour, true) == "10 hours ago";
    ParsePhrase(10, Hour, true);
  }

  lemma TwoHoursAgo()
    ensures ParseRelativeMinutes("2 hours ago") == Minutes(120)
  {
    assert Phrase(2, Hour, true) == "2 hours ago";
    ParsePhrase(2, Hour, true);
  }

  /** For a publisher name without surrounding white space, membership is decided by its
      lower-cased form alone. */
  lemma AuthorityByName(source: string, name: string)
    requires IsTrimmed(source) && Lower(source) == name
    ensures IsAuthority(source) <==> name in AuthoritySources
  {
    TrimTrimmed(source);
  }

  lemma LowerReuters()
    ensures Lower("Reuters") == "reuters"
  {
  }

  lemma LowerTechDaily()
    ensures Lower("Tech Daily") == "tech daily"
  {
  }

  lemma TechDailyNotListed()
    ensures "tech daily" !in AuthoritySources
  {
  }

  lemma ReutersIsCurated()
    ensures IsAuthority("Reuters") && !IsAuthority("Tech Daily")
  {
    LowerReuters();
    AuthorityByName("Reuters", "reuters");
    LowerTechDaily();
    AuthorityByName("Tech Daily", "tech daily");
    TechDailyNotListed();
  }

  /** "10 hours ago" from Reuters outranks "2 hours ago" from a non-curated outlet:
      0.144 against -0.0012 in the source's units. */
  lemma CuratedTenHoursBeatsTwoHours()
    ensures ScoreItem("10 hours ago", "Reuters") == 14400
    ensures ScoreItem("2 hours ago", "Tech Daily") == -120
  {
    TenHoursAgo();
    TwoHoursAgo();
    ReutersIsCurated();
  }
}

=== FILE: stable_sort.dfy ===
/** A stable sort into non-increasing key order, the behaviour of JavaScript's
    `Array.prototype.sort` (stable since ES2019) with the comparator `(a, b) => key(b) - key(a)`.
    Stability is stated on values: for every key, the subsequence of elements carrying
    that key is the same before and after sorting. */
module StableSort {

  /** An element paired with a score computed elsewhere (the river borrows its scores). */
  datatype Scored<T> = Scored(item: T, score: int)

  function ScoreOf<T>(x: Scored<T>): int {
    x.score
  }

  predicate Descending<T>(xs: seq<T>, key: T -> int) {
    forall i, j :: 0 <= i < j < |xs| ==> key(xs[i]) >= key(xs[j])
  }

  /** The subsequence of `xs` whose key is `k`, in order. */
  function WithKey<T>(xs: seq<T>, key: T -> int, k: int): (r: seq<T>)
    ensures |r| <= |xs|
  {
    if |xs| == 0 then []
    else (if key(xs[0]) == k then [xs[0]] else []) + WithKey(xs[1..], key, k)
  }

  /** `r` is `xs` sorted into non-increasing key order, equal keys keeping their order. */
  ghost predicate IsStableSortOf<T>(r: seq<T>, xs: seq<T>, key: T -> int) {
    Descending(r, key) && forall k :: WithKey(r, key, k) == WithKey(xs, key, k)
  }

  lemma WithKeyCons<T>(x: T, xs: seq<T>, key: T -> int, k: int)
    ensures WithKey([x] + xs, key, k) == (if key(x) == k then [x] else []) + WithKey(xs, key, k)
  {
    assert ([x] + xs)[1..] == xs;
  }

  /** No element of `xs` has key `k`. */
  lemma WithKeyAbsent<T>(xs: seq<T>, key: T -> int, k: int)
    requires forall i :: 0 <= i < |xs| ==> key(xs[i]) != k
    ensures WithKey(xs, key, k) == []
  {
    if |xs| > 0 {
      WithKeyAbsent(xs[1..], key, k);
    }
  }

  lemma ConsInjective<T>(x: T, xs: seq<T>, y: T, ys: seq<T>)
    requires [x] + xs == [y] + ys
    ensures x == y && xs == ys
  {
    assert ([x] + xs)[0] == x && ([y] + ys)[0] == y;
    assert ([x] + xs)[1..] == xs && ([y] + ys)[1..] == ys;
  }

  /** Puts `x` in front of the first element whose key is not above its own. */
  function Insert<T>(x: T, s: seq<T>, key: T -> int): (r: seq<T>)
    requires Descending(s, key)
    ensures Descending(r, key)
    ensures multiset(r) == multiset(s) + multiset{x}
    ensures |r| == |s| + 1
    ensures key(r[0]) == key(x) || (|s| > 0 && r[0] == s[0])
  {
    if |s| == 0 || key(x) >= key(s[0]) then [x] + s
    else
      var rest := Insert(x, s[1..], key);
      assert s == [s[0]] + s[1..];
      assert key(rest[0]) <= key(s[0]);
      [s[0]] + rest
  }

  /** Inserting `x` adds it in front of its own key's subsequence and leaves the other
      keys' subsequences alone. */
  lemma {:induction false} InsertWithKey<T>(x: T, s: seq<T>, key: T -> int, k: int)
    requires Descending(s, key)
    ensures WithKey(Insert(x, s, key), key, k) == (if key(x) == k then [x] else []) + WithKey(s, key, k)
  {
    if |s| == 0 || key(x) >= key(s[0]) {
      WithKeyCons(x, s, key, k);
    } else {
      var rest := Insert(x, s[1..], key);
      assert s == [s[0]] + s[1..];
      InsertWithKey(x, s[1..], key, k);
      WithKeyCons(s[0], rest, key, k);
      WithKeyCons(s[0], s[1..], key, k);
    }
  }

  /** Insertion sort from the back: each element goes in front of the later elements
      that do not outrank it, so equal keys keep their input order. */
  function SortDescending<T>(xs: seq<T>, key: T -> int): (r: seq<T>)
    ensures IsStableSortOf(r, xs, key)
    ensures multiset(r) == multiset(xs)
  {
    if |xs| == 0 then []
    else
      var rest := SortDescending(xs[1..], key);
      assert xs == [xs[0]] + xs[1..];
      forall k ensures WithKey(Insert(xs[0], rest, key), key, k) == WithKey(xs, key, k) {
        InsertWithKey(xs[0], rest, key, k);
        WithKeyCons(xs[0], xs[1..], key, k);
      }
      Insert(xs[0], rest, key)
  }

  /** Two non-increasing sequences with the same per-key subsequences, not both empty,
      are both non-empty and start with the same key. */
  lemma {:induction false} FirstKeysMatch<T>(a: seq<T>, b: seq<T>, key: T -> int)
    requires Descending(a, key) && Descending(b, key)
    requires forall k :: WithKey(a, key, k) == WithKey(b, key, k)
    requires |a| > 0 || |b| > 0
    ensures |a| > 0 && |b| > 0 && key(a[0]) == key(b[0])
  {
    if |a| == 0 || (|b| > 0 && key(b[0]) > key(a[0])) {
      var k := key(b[0]);
      WithKeyAbsent(a, key, k);
      WithKeyCons(b[0], b[1..], key, k);
      assert false;
    }
    if |b| == 0 || key(a[0]) > key(b[0]) {
      var k := key(a[0]);
      WithKeyAbsent(b, key, k);
      WithKeyCons(a[0], a[1..], key, k);
      assert false;
    }
  }

  /** With equal first keys, the first elements agree and so do the tails' per-key
      subsequences. */
  lemma {:induction false} TailsAgree<T>(a: seq<T>, b: seq<T>, key: T -> int)
    requires |a| > 0 && |b| > 0 && key(a[0]) == key(b[0])
    requires forall k :: WithKey(a, key, k) == WithKey(b, key, k)
    ensures a[0] == b[0]
    ensures forall k :: WithKey(a[1..], key, k) == WithKey(b[1..], key, k)
  {
    assert a == [a[0]] + a[1..] && b == [b[0]] + b[1..];
    forall k ensures WithKey(a[1..], key, k) == WithKey(b[1..], key, k) {
      assert WithKey(a, key, k) == WithKey(b, key, k);
      WithKeyCons(a[0], a[1..], key, k);
      WithKeyCons(b[0], b[1..], key, k);
      if k == key(a[0]) {
        ConsInjective(a[0], WithKey(a[1..], key, k), b[0], WithKey(b[1..], key, k));
      } else {
        assert WithKey(a, key, k) == WithKey(a[1..], key, k);
        assert WithKey(b, key, k) == WithKey(b[1..], key, k);
      }
    }
    var k0 := key(a[0]);
    assert WithKey(a, key, k0) == WithKey(b, key, k0);
    WithKeyCons(a[0], a[1..], key, k0);
    WithKeyCons(b[0], b[1..], key, k0);
    ConsInjective(a[0], WithKey(a[1..], key, k0), b[0], WithKey(b[1..], key, k0));
  }

  /** Two non-increasing sequences with the same per-key subsequences are equal: the
      stable sort of a sequence is unique. */
  lemma {:induction false} StableSortUnique<T>(a: seq<T>, b: seq<T>, key: T -> int)
    requires Descending(a, key) && Descending(b, key)
    requires forall k :: WithKey(a, key, k) == WithKey(b, key, k)
    ensures a == b
    decreases |a| + |b|
  {
    if |a| > 0 || |b| > 0 {
      FirstKeysMatch(a, b, key);
      TailsAgree(a, b, key);
      StableSortUnique(a[1..], b[1..], key);
      assert a == [a[0]] + a[1..] && b == [b[0]] + b[1..];
    }
  }

  /** Whatever stable descending sort is used, the result is `SortDescending`'s, and so
      a permutation of the input. */
  lemma StableSortIsSortDescending<T>(r: seq<T>, xs: seq<T>, key: T -> int)
    requires IsStableSortOf(r, xs, key)
    ensures r == SortDescending(xs, key)
    ensures multiset(r) == multiset(xs)
  {
    StableSortUnique(r, SortDescending(xs, key), key);
  }

  /** Sorting an already sorted sequence changes nothing. */
  lemma SortDescendingIdempotent<T>(xs: seq<T>, key: T -> int)
    ensures SortDescending(SortDescending(xs, key), key) == SortDescending(xs, key)
  {
    var r := SortDescending(xs, key);
    StableSortUnique(SortDescending(r, key), r, key);
  }

  /** The elements of a scored sequence, scores dropped. */
  function Items<T>(xs: seq<Scored<T>>): (r: seq<T>)
    ensures |r| == |xs|
    ensures forall i :: 0 <= i < |xs| ==> r[i] == xs[i].item
  {
    seq(|xs|, i requires 0 <= i < |xs| => xs[i].item)
  }

  lemma ItemsCons<T>(x: Scored<T>, xs: seq<Scored<T>>)
    ensures Items([x] + xs) == [x.item] + Items(xs)
  {
  }

  lemma {:induction false} InsertItems<T>(x: Scored<T>, s: seq<Scored<T>>, key: Scored<T> -> int)
    requires Descending(s, key)
    ensures multiset(Items(Insert(x, s, key))) == multiset(Items(s)) + multiset{x.item}
  {
    if |s| == 0 || key(x) >= key(s[0]) {
      ItemsCons(x, s);
    } else {
      assert s == [s[0]] + s[1..];
      InsertItems(x, s[1..], key);
      ItemsCons(s[0], Insert(x, s[1..], key));
      ItemsCons(s[0], s[1..]);
    }
  }

  /** Sorting scored elements and dropping the scores leaves a permutation of the elements. */
  lemma {:induction false} SortedItemsPermutation<T>(xs: seq<Scored<T>>, key: Scored<T> -> int)
    ensures multiset(Items(SortDescending(xs, key))) == multiset(Items(xs))
  {
    if |xs| > 0 {
      assert xs == [xs[0]] + xs[1..];
      SortedItemsPermutation(xs[1..], key);
      InsertItems(xs[0], SortDescending(xs[1..], key), key);
      ItemsCons(xs[0], xs[1..]);
    }
  }
}

=== FILE: tabs.dfy ===
/** The tab interface as a state machine: each handler is a transition on the tab list,
    the active tab id and the search box, returning the fetch it starts, if any. A fetch
    completing is an event of its own. Tab ids, which the interface draws at random, are
    parameters. */
module Tabs {
  import opened Wrappers
  import opened Text
  import opened Types
  import Envelope

  datatype AppState = AppState(tabs: seq<Tab>, active: Option<string>, input: string)

  /** A fetch a transition starts: `fetchNewsForTopic(topic)` for tab `tabId`. */
  datatype Effect = NoFetch | Fetch(tabId: string, topic: string)

  datatype Transition = Transition(state: AppState, effect: Effect)

  const DefaultTopic: string := "Artificial Intelligence"

  const Initial: AppState := AppState([], None, [])

  /** Two topics name the same tab when they agree after lower-casing; white space counts. */
  predicate SameTopic(a: string, b: string) {
    Lower(a) == Lower(b)
  }

  predicate HasId(tabs: seq<Tab>, id: string) {
    exists i :: 0 <= i < |tabs| && tabs[i].id == id
  }

  /** `tabs.find(...)` on the topic: the first tab whose topic is the same as `topic`. */
  function FindByTopic(tabs: seq<Tab>, topic: string): (r: Option<nat>)
    ensures r.None? <==> forall i :: 0 <= i < |tabs| ==> !SameTopic(tabs[i].topic, topic)
    ensures r.Some? ==> r.value < |tabs| && SameTopic(tabs[r.value].topic, topic)
                        && forall i :: 0 <= i < r.value ==> !SameTopic(tabs[i].topic, topic)
  {
    if |tabs| == 0 then None
    else if SameTopic(tabs[0].topic, topic) then Some(0)
    else
      match FindByTopic(tabs[1..], topic)
      case None => None
      case Some(k) => Some(k + 1)
  }

  /** `createTab(topic)`. A tab already open on the same topic is made active and nothing
      is fetched; otherwise a loading tab without a feed is appended under `freshId`, made
      active, and its fetch starts. */
  function CreateTab(s: AppState, topic: string, freshId: string): (r: Transition)
    ensures r.state.input == s.input
    ensures FindByTopic(s.tabs, topic).Some? ==>
              r.state.tabs == s.tabs && r.effect == NoFetch
              && r.state.active == Some(s.tabs[FindByTopic(s.tabs, topic).value].id)
    ensures FindByTopic(s.tabs, topic).None? ==>
              r.state.tabs == s.tabs + [Tab(freshId, topic, None, Loading)]
              && r.state.active == Some(freshId) && r.effect == Fetch(freshId, topic)
  {
    match FindByTopic(s.tabs, topic)
    case Some(k) => Transition(s.(active := Some(s.tabs[k].id)), NoFetch)
    case None =>
      Transition(s.(tabs := s.tabs + [Tab(freshId, topic, None, Loading)], active := Some(freshId)),
                 Fetch(freshId, topic))
  }

  /** The state change on settling the fetch for tab `id`: on success the tab holds the
      feed and is idle, on failure it is in error and keeps whatever feed it had. */
  function Settle(t: Tab, outcome: Result<NewsFeed, Envelope.FetchError>): Tab {
    if outcome.Success? then t.(feed := Some(outcome.value), status := Idle)
    else t.(status := Error)
  }

  /** The completion of the fetch for tab `id`: that tab is settled, every other tab and
      the rest of the state stay as they were. */
  function CompleteFetch(s: AppState, id: string, outcome: Result<NewsFeed, Envelope.FetchError>): (r: AppState)
    ensures r.active == s.active && r.input == s.input
    ensures |r.tabs| == |s.tabs|
    ensures forall i :: 0 <= i < |s.tabs| ==>
              r.tabs[i].id == s.tabs[i].id && r.tabs[i].topic == s.tabs[i].topic
    ensures forall i :: 0 <= i < |s.tabs| && s.tabs[i].id != id ==> r.tabs[i] == s.tabs[i]
    ensures forall i :: 0 <= i < |s.tabs| && s.tabs[i].id == id ==>
              (outcome.Success? ==> r.tabs[i].status == Idle && r.tabs[i].feed == Some(outcome.value))
              && (outcome.Failure? ==> r.tabs[i].status == Error && r.tabs[i].feed == s.tabs[i].feed)
  {
    s.(tabs := seq(|s.tabs|, i requires 0 <= i < |s.tabs| =>
                   if s.tabs[i].id == id then Settle(s.tabs[i], outcome) else s.tabs[i]))
  }

  /** A completion for a tab that has been closed changes nothing. */
  lemma StaleCompletionIgnored(s: AppState, id: string, outcome: Result<NewsFeed, Envelope.FetchError>)
    requires !HasId(s.tabs, id)
    ensures CompleteFetch(s, id, outcome) == s
  {
    var r := CompleteFetch(s, id, outcome);
    assert r.tabs == s.tabs;
  }

  /** `tabs.filter((t) => t.id !== id)`. */
  function Without(tabs: seq<Tab>, id: string): (r: seq<Tab>)
    ensures |r| <= |tabs|
    ensures forall i :: 0 <= i < |r| ==> r[i].id != id && r[i] in tabs
    ensures forall i :: 0 <= i < |tabs| && tabs[i].id != id ==> tabs[i] in r
  {
    if |tabs| == 0 then []
    else
      var rest := Without(tabs[1..], id);
      assert forall i :: 1 <= i < |tabs| ==> tabs[i] == tabs[1..][i - 1];
      if tabs[0].id == id then rest else [tabs[0]] + rest
  }

  /** The filter works piece by piece, so the remaining tabs keep their order. */
  lemma {:induction false} WithoutAppend(a: seq<Tab>, b: seq<Tab>, id: string)
    ensures Without(a + b, id) == Without(a, id) + Without(b, id)
  {
    if |a| == 0 {
      assert a + b == b;
    } else {
      assert (a + b)[1..] == a[1..] + b;
      WithoutAppend(a[1..], b, id);
    }
  }

  /** A single tab is dropped exactly when it carries the id. With `WithoutAppend` this
      fixes the result: the other tabs, in order. */
  lemma WithoutOne(t: Tab, id: string)
    ensures Without([t], id) == if t.id == id then [] else [t]
  {
    assert [t][1..] == [];
  }

  /** Closing an id no tab carries leaves the list as it is. */
  lemma {:induction false} WithoutAbsent(tabs: seq<Tab>, id: string)
    requires !HasId(tabs, id)
    ensures Without(tabs, id) == tabs
  {
    if |tabs| > 0 {
      WithoutAbsent(tabs[1..], id);
      assert tabs == [tabs[0]] + tabs[1..];
    }
  }

  /** `closeTab(id)`: the tab leaves the list. If it was active, the last remaining tab
      becomes active, or none when the list is now empty; otherwise the active tab stays. */
  function CloseTab(s: AppState, id: string): (r: AppState)
    ensures r.tabs == Without(s.tabs, id) && r.input == s.input
    ensures s.active == Some(id) && r.tabs != [] ==> r.active == Some(r.tabs[|r.tabs| - 1].id)
    ensures s.active == Some(id) && r.tabs == [] ==> r.active == None
    ensures s.active != Some(id) ==> r.active == s.active
  {
    var remaining := Without(s.tabs, id);
    var active :=
      if s.active == Some(id) then (if |remaining| > 0 then Some(remaining[|remaining| - 1].id) else None)
      else s.active;
    s.(tabs := remaining, active := active)
  }

  /** Clicking a tab's header. */
  function SelectTab(s: AppState, id: string): (r: AppState)
    ensures r.tabs == s.tabs && r.input == s.input && r.active == Some(id)
  {
    s.(active := Some(id))
  }

  /** The effect that runs whenever the list is empty: open the default topic. */
  function EnsureDefaultTab(s: AppState, freshId: string): (r: Transition)
    ensures s.tabs != [] ==> r == Transition(s, NoFetch)
    ensures s.tabs == [] ==> r.state.tabs == [Tab(freshId, DefaultTopic, None, Loading)]
                             && r.state.active == Some(freshId) && r.effect == Fetch(freshId, DefaultTopic)
  {
    if |s.tabs| == 0 then CreateTab(s, DefaultTopic, freshId) else Transition(s, NoFetch)
  }

  /** `handleSubmit`: a blank search box does nothing; otherwise its trimmed text is
      opened as a topic and the box is cleared. */
  function HandleSubmit(s: AppState, freshId: string): (r: Transition)
    ensures Trim(s.input) == [] ==> r == Transition(s, NoFetch)
    ensures Trim(s.input) != [] ==>
              r.state.input == [] && r.state.tabs == CreateTab(s, Trim(s.input), freshId).state.tabs
              && r.state.active == CreateTab(s, Trim(s.input), freshId).state.active
              && r.effect == CreateTab(s, Trim(s.input), freshId).effect
  {
    var topic := Trim(s.input);
    if topic == [] then Transition(s, NoFetch)
    else
      var t := CreateTab(s, topic, freshId);
      Transition(t.state.(input := []), t.effect)
  }

  /** The label of a trending-topic button: `#` and the topic with all white space removed.
      Clicking it opens the topic itself, not the label. */
  function TrendingLabel(topic: string): (r: string)
    ensures |r| >= 1 && r[0] == '#'
    ensures forall i :: 1 <= i < |r| ==> !IsSpace(r[i])
    ensures forall c :: !IsSpace(c) ==> multiset(r)[c] == multiset(topic)[c] + (if c == '#' then 1 else 0)
    ensures r[1..] == RemoveSpace(topic)
  {
    var body := RemoveSpace(topic);
    assert multiset("#" + body) == multiset{'#'} + multiset(body);
    "#" + body
  }

  /** A topic without white space is shown as it is, after the `#`. */
  lemma TrendingLabelOfSpacelessTopic(topic: string)
    requires forall i :: 0 <= i < |topic| ==> !IsSpace(topic[i])
    ensures TrendingLabel(topic) == "#" + topic
  {
    RemoveSpaceKeepsSpaceless(topic);
  }

  /** Multi-word topics are run together in the label. */
  lemma TrendingLabelJoinsWords(a: string, b: string)
    ensures TrendingLabel(a + " " + b) == TrendingLabel(a) + RemoveSpace(b)
  {
    RemoveSpaceJoinsWords(a, b);
    AppendAssociative("#", RemoveSpace(a), RemoveSpace(b));
  }

  /** Regrouping a concatenation, proved apart from the label's multiset clauses, which
      make the same step expensive inside the lemma above. */
  lemma AppendAssociative(a: string, b: string, c: string)
    ensures a + (b + c) == (a + b) + c
  {
  }

  /** The tab whose id is active, when there is one. */
  function ActiveTab(s: AppState): (r: Option<Tab>)
    ensures r.Some? ==> r.value in s.tabs && Some(r.value.id) == s.active
    ensures r.None? ==> s.active.None? || !HasId(s.tabs, s.active.value)
  {
    if s.active.None? then None
    else
      var k := FindById(s.tabs, s.active.value);
      if k.None? then None else Some(s.tabs[k.value])
  }

  function FindById(tabs: seq<Tab>, id: string): (r: Option<nat>)
    ensures r.None? <==> !HasId(tabs, id)
    ensures r.Some? ==> r.value < |tabs| && tabs[r.value].id == id
  {
    if |tabs| == 0 then None
    else if tabs[0].id == id then Some(0)
    else
      match FindById(tabs[1..], id)
      case None => None
      case Some(k) => Some(k + 1)
  }

  /** "Try Resyncing" as written: `createTab` on the active tab's own topic. */
  function ResyncAsWritten(s: AppState, freshId: string): (r: Transition)
  {
    match ActiveTab(s)
    case None => Transition(s, NoFetch)
    case Some(t) => CreateTab(s, t.topic, freshId)
  }

  /** The retry as written never starts a fetch and leaves every tab as it was, so a tab in
      error stays in error: its topic always finds an open tab. */
  lemma ResyncAsWrittenNeverRefetches(s: AppState, freshId: string)
    ensures ResyncAsWritten(s, freshId).effect == NoFetch
    ensures ResyncAsWritten(s, freshId).state.tabs == s.tabs
  {
    match ActiveTab(s)
    case None =>
    case Some(t) =>
      var k :| 0 <= k < |s.tabs| && s.tabs[k] == t;
      assert SameTopic(s.tabs[k].topic, t.topic);
  }

  /** The retry as written keeps the state well formed. */
  lemma ResyncAsWrittenWellFormed(s: AppState, freshId: string)
    requires WellFormed(s) && !HasId(s.tabs, freshId)
    ensures WellFormed(ResyncAsWritten(s, freshId).state)
  {
    match ActiveTab(s)
    case None =>
    case Some(t) => CreateTabWellFormed(s, t.topic, freshId);
  }

  /** The retry as intended: the active tab goes back to loading, keeping its feed, and its
      fetch starts again. */
  function Resync(s: AppState): (r: Transition)
    ensures r.state.active == s.active && r.state.input == s.input
    ensures ActiveTab(s).None? ==> r == Transition(s, NoFetch)
    ensures ActiveTab(s).Some? ==> r.effect == Fetch(ActiveTab(s).value.id, ActiveTab(s).value.topic)
  {
    match ActiveTab(s)
    case None => Transition(s, NoFetch)
    case Some(t) =>
      var tabs := seq(|s.tabs|, i requires 0 <= i < |s.tabs| =>
                      if s.tabs[i].id == t.id then s.tabs[i].(status := Loading) else s.tabs[i]);
      Transition(s.(tabs := tabs), Fetch(t.id, t.topic))
  }

  /** No two tabs share an id, and no two are on the same topic. */
  predicate Distinct(tabs: seq<Tab>) {
    forall i, j :: 0 <= i < j < |tabs| ==> tabs[i].id != tabs[j].id && !SameTopic(tabs[i].topic, tabs[j].topic)
  }

  /** What every reachable state satisfies: distinct tabs, an active id exactly when there
      are tabs and then naming one of them, and no idle tab without a feed (an idle tab
      with a feed is the loaded state). */
  predicate WellFormed(s: AppState) {
    && Distinct(s.tabs)
    && (s.active.None? <==> s.tabs == [])
    && (s.active.Some? ==> HasId(s.tabs, s.active.value))
    && (forall i :: 0 <= i < |s.tabs| && s.tabs[i].status == Idle ==> s.tabs[i].feed.Some?)
  }

  lemma InitialWellFormed()
    ensures WellFormed(Initial)
  {
  }

  /** A fresh id and a topic no tab is on keep the tabs distinct when appended. */
  lemma CreateTabWellFormed(s: AppState, topic: string, freshId: string)
    requires WellFormed(s) && !HasId(s.tabs, freshId)
    ensures WellFormed(CreateTab(s, topic, freshId).state)
  {
    var r := CreateTab(s, topic, freshId).state;
    if FindByTopic(s.tabs, topic).None? {
      assert r.tabs[|s.tabs|].id == freshId;
    }
  }

  /** After `createTab` the active tab is on the requested topic, new or found. */
  lemma CreateTabActivatesTopic(s: AppState, topic: string, freshId: string)
    requires WellFormed(s) && !HasId(s.tabs, freshId)
    ensures var r := CreateTab(s, topic, freshId).state;
            ActiveTab(r).Some? && SameTopic(ActiveTab(r).value.topic, topic)
  {
    var r := CreateTab(s, topic, freshId).state;
    CreateTabWellFormed(s, topic, freshId);
    match FindByTopic(s.tabs, topic)
    case Some(k) =>
      var t := ActiveTab(r).value;
      var j := FindById(r.tabs, t.id).value;
      assert r.tabs[j].id == r.tabs[k].id;
    case None =>
      var t := ActiveTab(r).value;
      var j := FindById(r.tabs, t.id).value;
      assert r.tabs[j].id == r.tabs[|s.tabs|].id;
  }

  /** Opening a topic again, in any letter case, adds no tab. */
  lemma ReopeningTopicAddsNoTab(s: AppState, topic: string, topic': string, id: string, id': string)
    requires SameTopic(topic, topic')
    ensures var first := CreateTab(s, topic, id).state;
            CreateTab(first, topic', id').state.tabs == first.tabs
            && CreateTab(first, topic', id').effect == NoFetch
  {
    var first := CreateTab(s, topic, id).state;
    if FindByTopic(s.tabs, topic).None? {
      assert SameTopic(first.tabs[|s.tabs|].topic, topic');
    } else {
      var k := FindByTopic(s.tabs, topic).value;
      assert SameTopic(first.tabs[k].topic, topic');
    }
  }

  lemma CompleteFetchWellFormed(s: AppState, id: string, outcome: Result<NewsFeed, Envelope.FetchError>)
    requires WellFormed(s)
    ensures WellFormed(CompleteFetch(s, id, outcome))
  {
    var r := CompleteFetch(s, id, outcome);
    if s.active.Some? {
      var i :| 0 <= i < |s.tabs| && s.tabs[i].id == s.active.value;
      assert r.tabs[i].id == s.active.value;
    }
  }

  /** Neither the id nor the topic of `t` occurs in `tabs`. */
  predicate Apart(t: Tab, tabs: seq<Tab>) {
    forall k :: 0 <= k < |tabs| ==> t.id != tabs[k].id && !SameTopic(t.topic, tabs[k].topic)
  }

  lemma {:induction false} DistinctTail(tabs: seq<Tab>)
    requires Distinct(tabs) && |tabs| > 0
    ensures Distinct(tabs[1..]) && Apart(tabs[0], tabs[1..])
  {
    var tail := tabs[1..];
    forall i, j | 0 <= i < j < |tail|
      ensures tail[i].id != tail[j].id && !SameTopic(tail[i].topic, tail[j].topic)
    {
      assert tail[i] == tabs[i + 1] && tail[j] == tabs[j + 1];
    }
    forall k | 0 <= k < |tail|
      ensures tabs[0].id != tail[k].id && !SameTopic(tabs[0].topic, tail[k].topic)
    {
      assert tail[k] == tabs[k + 1];
    }
  }

  lemma {:induction false} DistinctCons(t: Tab, rest: seq<Tab>)
    requires Distinct(rest) && Apart(t, rest)
    ensures Distinct([t] + rest)
  {
    var r := [t] + rest;
    forall i, j | 0 <= i < j < |r|
      ensures r[i].id != r[j].id && !SameTopic(r[i].topic, r[j].topic)
    {
      if i > 0 {
        assert r[i] == rest[i - 1] && r[j] == rest[j - 1];
      } else {
        assert r[j] == rest[j - 1];
      }
    }
  }

  /** A tab apart from a list is apart from what the filter keeps of it. */
  lemma {:induction false} ApartWithout(t: Tab, tabs: seq<Tab>, id: string)
    requires Apart(t, tabs)
    ensures Apart(t, Without(tabs, id))
  {
    var rest := Without(tabs, id);
    forall k | 0 <= k < |rest|
      ensures t.id != rest[k].id && !SameTopic(t.topic, rest[k].topic)
    {
      var m :| 0 <= m < |tabs| && tabs[m] == rest[k];
    }
  }

  lemma {:induction false} WithoutDistinct(tabs: seq<Tab>, id: string)
    requires Distinct(tabs)
    ensures Distinct(Without(tabs, id))
  {
    if |tabs| > 0 {
      var tail := tabs[1..];
      DistinctTail(tabs);
      WithoutDistinct(tail, id);
      if tabs[0].id != id {
        ApartWithout(tabs[0], tail, id);
        DistinctCons(tabs[0], Without(tail, id));
      }
    }
  }

  lemma CloseTabWellFormed(s: AppState, id: string)
    requires WellFormed(s)
    ensures WellFormed(CloseTab(s, id))
  {
    var r := CloseTab(s, id);
    WithoutDistinct(s.tabs, id);
    if s.active.Some? && s.active.value != id {
      var i :| 0 <= i < |s.tabs| && s.tabs[i].id == s.active.value;
      var k :| 0 <= k < |r.tabs| && r.tabs[k] == s.tabs[i];
    }
    forall i | 0 <= i < |r.tabs| && r.tabs[i].status == Idle
      ensures r.tabs[i].feed.Some?
    {
      var k :| 0 <= k < |s.tabs| && s.tabs[k] == r.tabs[i];
    }
  }

  lemma ResyncWellFormed(s: AppState)
    requires WellFormed(s)
    ensures WellFormed(Resync(s).state)
  {
    var r := Resync(s).state;
    if ActiveTab(s).Some? && s.active.Some? {
      var i :| 0 <= i < |s.tabs| && s.tabs[i].id == s.active.value;
      assert r.tabs[i].id == s.active.value;
    }
  }

  /** The intended retry works: an active tab in error is refetched under its own id and
      topic, shows as loading meanwhile, and a successful completion loads it. */
  lemma ResyncRefetches(s: AppState, feed: NewsFeed)
    requires WellFormed(s) && ActiveTab(s).Some? && ActiveTab(s).value.status == Error
    ensures var t := ActiveTab(s).value;
            var r := Resync(s);
            r.effect == Fetch(t.id, t.topic)
            && ActiveTab(r.state).Some? && ActiveTab(r.state).value.status == Loading
            && var done := CompleteFetch(r.state, t.id, Success(feed));
               ActiveTab(done).Some? && ActiveTab(done).value.status == Idle
               && ActiveTab(done).value.feed == Some(feed)
  {
    var t := ActiveTab(s).value;
    var r := Resync(s);
    var k := FindById(s.tabs, t.id).value;
    assert r.state.tabs[k].id == t.id;
    var k' := FindById(r.state.tabs, t.id).value;
    assert k' == k;
    var done := CompleteFetch(r.state, t.id, Success(feed));
    assert done.tabs[k].id == t.id;
    var k'' := FindById(done.tabs, t.id).value;
    assert k'' == k;
  }

  /** What the interface can do to the state. */
  datatype Event =
    | EditInput(text: string)
    | Submit(freshId: string)
    | OpenTopic(topic: string, freshId: string)
    | ClickTab(id: string)
    | ClickClose(id: string)
    | Completed(id: string, outcome: Result<NewsFeed, Envelope.FetchError>)
    | Retry(freshId: string)
    | OpenDefault(freshId: string)

  /** Events the interface can actually produce in state `s`: headers exist only for open
      tabs, and a new tab's id is not already in use. */
  predicate Enabled(s: AppState, e: Event) {
    match e
    case Submit(freshId) => !HasId(s.tabs, freshId)
    case OpenTopic(_, freshId) => !HasId(s.tabs, freshId)
    case OpenDefault(freshId) => !HasId(s.tabs, freshId)
    case Retry(freshId) => !HasId(s.tabs, freshId)
    case ClickTab(id) => HasId(s.tabs, id)
    case _ => true
  }

  /** One event. The retry button is the one as written, which never fetches; a trending
      button opens its topic; the default effect opens "Artificial Intelligence" when no
      tab is left. */
  function Step(s: AppState, e: Event): (r: Transition)
    ensures e.Completed? || e.EditInput? ==> r.state.active == s.active
    ensures r.effect.Fetch? ==> e.Submit? || e.OpenTopic? || e.OpenDefault?
    ensures e.Retry? ==> r.effect == NoFetch && r.state.tabs == s.tabs
    ensures e.EditInput? ==> r.state.tabs == s.tabs && r.state.input == e.text
    ensures !e.EditInput? && !e.Submit? ==> r.state.input == s.input
  {
    match e
    case EditInput(text) => Transition(s.(input := text), NoFetch)
    case Submit(freshId) => HandleSubmit(s, freshId)
    case OpenTopic(topic, freshId) => CreateTab(s, topic, freshId)
    case ClickTab(id) => Transition(SelectTab(s, id), NoFetch)
    case ClickClose(id) => Transition(CloseTab(s, id), NoFetch)
    case Completed(id, outcome) => Transition(CompleteFetch(s, id, outcome), NoFetch)
    case Retry(freshId) =>
      ResyncAsWrittenNeverRefetches(s, freshId);
      ResyncAsWritten(s, freshId)
    case OpenDefault(freshId) => EnsureDefaultTab(s, freshId)
  }

  /** Every enabled event keeps the state well formed. */
  lemma StepPreservesWellFormed(s: AppState, e: Event)
    requires WellFormed(s) && Enabled(s, e)
    ensures WellFormed(Step(s, e).state)
  {
    match e
    case EditInput(_) =>
    case Submit(freshId) =>
      if Trim(s.input) != [] {
        CreateTabWellFormed(s, Trim(s.input), freshId);
      }
    case OpenTopic(topic, freshId) => CreateTabWellFormed(s, topic, freshId);
    case ClickTab(_) =>
    case ClickClose(id) => CloseTabWellFormed(s, id);
    case Completed(id, outcome) => CompleteFetchWellFormed(s, id, outcome);
    case Retry(freshId) => ResyncAsWrittenWellFormed(s, freshId);
    case OpenDefault(freshId) =>
      if s.tabs == [] {
        CreateTabWellFormed(s, DefaultTopic, freshId);
      }
  }

  /** Closing the last tab leaves nothing active; the default effect then opens and
      fetches the default topic. */
  lemma ClosingLastTabReopensDefault(s: AppState, id: string, freshId: string)
    requires WellFormed(s) && |s.tabs| == 1 && s.tabs[0].id == id && freshId != id
    ensures var closed := CloseTab(s, id);
            closed.tabs == [] && closed.active == None
            && EnsureDefaultTab(closed, freshId).effect == Fetch(freshId, DefaultTopic)
  {
    assert s.tabs == [s.tabs[0]];
    assert Without(s.tabs, id) == [];
  }
}

=== FILE: text.dfy ===
/** String primitives the feed pipeline relies on: JavaScript's `trim`,
    `toLowerCase`, `indexOf`, `lastIndexOf`, the regular-expression class `\s`,
    and `replace(/\s+/g, '')`. Characters are Unicode scalar values; lower-casing
    is restricted to ASCII. */
module Text {

  /** The ECMAScript WhiteSpace and LineTerminator code points. `String.prototype.trim`
      and the regular-expression class `\s` both use exactly this set. */
  predicate IsSpace(c: char) {
    || c == '\t' || c == '\n' || c == '\U{000B}' || c == '\U{000C}' || c == '\r'
    || c == ' ' || c == '\U{00A0}' || c == '\U{1680}'
    || ('\U{2000}' <= c <= '\U{200A}')
    || c == '\U{2028}' || c == '\U{2029}' || c == '\U{202F}' || c == '\U{205F}'
    || c == '\U{3000}' || c == '\U{FEFF}'
  }

  /** The regular-expression class `\d`: ASCII digits only. */
  predicate IsDigit(c: char) {
    '0' <= c <= '9'
  }

  predicate IsUpper(c: char) {
    'A' <= c <= 'Z'
  }

  function LowerChar(c: char): (r: char)
    ensures !IsUpper(r)
    ensures IsUpper(c) ==> r as int == c as int + 32
    ensures !IsUpper(c) ==> r == c
  {
    if IsUpper(c) then (c as int + 32) as char else c
  }

  /** `toLowerCase`, on the ASCII letters. */
  function Lower(s: string): (r: string)
    ensures |r| == |s|
    ensures forall i :: 0 <= i < |s| ==> r[i] == LowerChar(s[i])
  {
    seq(|s|, i requires 0 <= i < |s| => LowerChar(s[i]))
  }

  predicate AllSpace(s: string) {
    forall i :: 0 <= i < |s| ==> IsSpace(s[i])
  }

  /** True when `s` neither starts nor ends with white space. */
  predicate IsTrimmed(s: string) {
    s == [] || (!IsSpace(s[0]) && !IsSpace(s[|s| - 1]))
  }

  /** Number of leading white-space characters. */
  function LeadingSpace(s: string): (n: nat)
    ensures n <= |s|
    ensures AllSpace(s[..n])
    ensures n < |s| ==> !IsSpace(s[n])
  {
    if |s| > 0 && IsSpace(s[0]) then
      var n := 1 + LeadingSpace(s[1..]);
      assert s[..n] == [s[0]] + s[1..][..n - 1];
      n
    else 0
  }

  /** Number of trailing white-space characters. */
  function TrailingSpace(s: string): (n: nat)
    ensures n <= |s|
    ensures AllSpace(s[|s| - n..])
    ensures n < |s| ==> !IsSpace(s[|s| - n - 1])
  {
    if |s| > 0 && IsSpace(s[|s| - 1]) then
      var init := s[..|s| - 1];
      var m := TrailingSpace(init);
      assert s[|s| - m - 1..] == init[|init| - m..] + [s[|s| - 1]];
      AllSpaceSnoc(init[|init| - m..], s[|s| - 1]);
      assert m + 1 < |s| ==> s[|s| - m - 2] == init[|init| - m - 1];
      m + 1
    else 0
  }

  lemma {:induction false} AllSpaceSnoc(a: string, c: char)
    requires AllSpace(a) && IsSpace(c)
    ensures AllSpace(a + [c])
  {
    assert forall i :: 0 <= i < |a| ==> (a + [c])[i] == a[i];
  }

  /** `String.prototype.trim`: the result is the slice of `s` left after removing
      the white space at both ends; it starts where the leading white space stops. */
  function Trim(s: string): (r: string)
    ensures IsTrimmed(r)
    ensures LeadingSpace(s) + |r| <= |s| && r == s[LeadingSpace(s)..LeadingSpace(s) + |r|]
    ensures AllSpace(s[..LeadingSpace(s)]) && AllSpace(s[LeadingSpace(s) + |r|..])
  {
    var lead := LeadingSpace(s);
    if lead == |s| then
      assert AllSpace(s[|s|..]);
      []
    else
      var trail := TrailingSpace(s);
      var r := s[lead..|s| - trail];
      assert r[|r| - 1] == s[|s| - trail - 1];
      r
  }

  /** The offset at which the trimmed text starts in `s`. */
  lemma {:induction false} TrimOffset(s: string) returns (k: nat)
    ensures k + |Trim(s)| <= |s| && Trim(s) == s[k..k + |Trim(s)|]
    ensures AllSpace(s[..k]) && AllSpace(s[k + |Trim(s)|..])
  {
    k := LeadingSpace(s);
  }

  /** A string that is already trimmed is its own trim. */
  lemma {:induction false} TrimTrimmed(s: string)
    requires IsTrimmed(s)
    ensures Trim(s) == s
  {
    var r := Trim(s);
    var i := LeadingSpace(s);
    if |s| > 0 {
      assert i == 0;
      assert |r| == |s|;
    }
  }

  /** Trimming is idempotent. */
  lemma TrimIdempotent(s: string)
    ensures Trim(Trim(s)) == Trim(s)
  {
    TrimTrimmed(Trim(s));
  }

  /** `s.indexOf(c)`: the position of the first `c`, or -1 when there is none. */
  function IndexOf(s: string, c: char): (r: int)
    ensures -1 <= r < |s|
    ensures r == -1 <==> c !in s
    ensures r >= 0 ==> s[r] == c && c !in s[..r]
  {
    if |s| == 0 then -1
    else if s[0] == c then 0
    else
      var k := IndexOf(s[1..], c);
      assert s == [s[0]] + s[1..];
      if k == -1 then -1
      else
        assert s[..k + 1] == [s[0]] + s[1..][..k];
        k + 1
  }

  /** `s.lastIndexOf(c)`: the position of the last `c`, or -1 when there is none. */
  function LastIndexOf(s: string, c: char): (r: int)
    ensures -1 <= r < |s|
    ensures r == -1 <==> c !in s
    ensures r >= 0 ==> s[r] == c && c !in s[r + 1..]
  {
    if |s| == 0 then -1
    else if s[|s| - 1] == c then |s| - 1
    else
      var init := s[..|s| - 1];
      var k := LastIndexOf(init, c);
      assert s == init + [s[|s| - 1]];
      if k == -1 then -1
      else
        assert s[k] == init[k];
        assert s[k + 1..] == init[k + 1..] + [s[|s| - 1]];
        k
  }

  /** `s.replace(/\s+/g, '')`: every white-space character removed, the rest kept in order. */
  function RemoveSpace(s: string): (r: string)
    ensures forall i :: 0 <= i < |r| ==> !IsSpace(r[i])
    ensures |r| <= |s|
    ensures forall c :: !IsSpace(c) ==> multiset(r)[c] == multiset(s)[c]
  {
    if |s| == 0 then []
    else
      assert s == [s[0]] + s[1..];
      if IsSpace(s[0]) then RemoveSpace(s[1..]) else [s[0]] + RemoveSpace(s[1..])
  }

  /** Text without white space is left as it is. */
  lemma {:induction false} RemoveSpaceKeepsSpaceless(s: string)
    requires forall i :: 0 <= i < |s| ==> !IsSpace(s[i])
    ensures RemoveSpace(s) == s
  {
    if |s| > 0 {
      RemoveSpaceKeepsSpaceless(s[1..]);
      assert s == [s[0]] + s[1..];
    }
  }

  /** Removal works piece by piece, so the kept characters stay in order. */
  lemma {:induction false} RemoveSpaceAppend(a: string, b: string)
    ensures RemoveSpace(a + b) == RemoveSpace(a) + RemoveSpace(b)
  {
    if |a| == 0 {
      assert a + b == b;
    } else {
      assert (a + b)[1..] == a[1..] + b;
      RemoveSpaceAppend(a[1..], b);
    }
  }

  /** A single character is dropped exactly when it is white space. With
      `RemoveSpaceAppend` this fixes the result: the non-space characters, in order. */
  lemma RemoveSpaceOfChar(c: char)
    ensures RemoveSpace([c]) == if IsSpace(c) then [] else [c]
  {
    assert [c][1..] == [];
  }

  lemma RemoveSpaceOfSpace()
    ensures RemoveSpace(" ") == []
  {
    RemoveSpaceOfChar(' ');
  }

  /** A trailing space disappears. */
  lemma RemoveTrailingSpace(a: string)
    ensures RemoveSpace(a + " ") == RemoveSpace(a)
  {
    RemoveSpaceAppend(a, " ");
    RemoveSpaceOfSpace();
    assert RemoveSpace(a) + [] == RemoveSpace(a);
  }

  /** Removing the space between two words joins them. */
  lemma RemoveSpaceJoinsWords(a: string, b: string)
    ensures RemoveSpace(a + " " + b) == RemoveSpace(a) + RemoveSpace(b)
  {
    var a' := a + " ";
    RemoveSpaceAppend(a', b);
    RemoveTrailingSpace(a);
  }

  /** `parts.join("")`. */
  function Concat(parts: seq<string>): (r: string)
    ensures (forall i :: 0 <= i < |parts| ==> parts[i] == []) <==> r == []
  {
    if |parts| == 0 then []
    else
      var rest := Concat(parts[1..]);
      assert forall i :: 1 <= i < |parts| ==> parts[i] == parts[1..][i - 1];
      parts[0] + rest
  }

  lemma ConcatAppend(a: seq<string>, b: seq<string>)
    ensures Concat(a + b) == Concat(a) + Concat(b)
  {
    if |a| > 0 {
      assert (a + b)[1..] == a[1..] + b;
      ConcatAppend(a[1..], b);
    } else {
      assert a + b == b;
    }
  }

  /** A single part is joined to itself. With `ConcatAppend` this fixes the result: the
      parts back to back, in order. */
  lemma ConcatOne(part: string)
    ensures Concat([part]) == part
  {
    assert [part][1..] == [];
    assert part + [] == part;
  }

  function DigitValue(c: char): nat {
    if IsDigit(c) then c as int - '0' as int else 0
  }

  /** `Number(d)` for a string of decimal digits (leading zeros allowed). */
  function DecimalValue(d: string): nat {
    if |d| == 0 then 0 else DecimalValue(d[..|d| - 1]) * 10 + DigitValue(d[|d| - 1])
  }

  function DigitChar(n: nat): (c: char)
    requires n < 10
    ensures IsDigit(c) && DigitValue(c) == n
  {
    ('0' as int + n) as char
  }

  /** `String(n)` for a non-negative integer: its shortest decimal spelling. */
  function NatToString(n: nat): (r: string)
    ensures |r| > 0
    ensures forall i :: 0 <= i < |r| ==> IsDigit(r[i])
    ensures |r| > 1 ==> r[0] != '0'
  {
    if n < 10 then [DigitChar(n)]
    else
      var r := NatToString(n / 10) + [DigitChar(n % 10)];
      assert r[0] == NatToString(n / 10)[0];
      r
  }

  /** Reading back the decimal spelling of `n` gives `n`. */
  lemma {:induction false} DecimalValueOfNatToString(n: nat)
    ensures DecimalValue(NatToString(n)) == n
  {
    if n >= 10 {
      var r := NatToString(n);
      assert r[..|r| - 1] == NatToString(n / 10);
      DecimalValueOfNatToString(n / 10);
    }
  }

  predicate NoUpper(s: string) {
    forall i :: 0 <= i < |s| ==> !IsUpper(s[i])
  }

  /** Lower-casing neither creates nor removes white space at the ends. */
  lemma LowerKeepsTrimmed(s: string)
    requires IsTrimmed(s)
    ensures IsTrimmed(Lower(s))
  {
  }

  lemma SpaceLowerChar(c: char)
    ensures IsSpace(LowerChar(c)) == IsSpace(c)
  {
  }

  lemma {:induction false} LeadingSpaceLower(s: string)
    ensures LeadingSpace(Lower(s)) == LeadingSpace(s)
  {
    if |s| > 0 {
      var l := Lower(s);
      var tail := s[1..];
      assert l[1..] == Lower(tail);
      SpaceLowerChar(s[0]);
      LeadingSpaceLower(tail);
    }
  }

  lemma {:induction false} TrailingSpaceLower(s: string)
    ensures TrailingSpace(Lower(s)) == TrailingSpace(s)
  {
    if |s| > 0 {
      var l := Lower(s);
      var init := s[..|s| - 1];
      assert l[..|l| - 1] == Lower(init);
      SpaceLowerChar(s[|s| - 1]);
      TrailingSpaceLower(init);
    }
  }

  /** Where `Trim` cuts `s`, in terms of the leading and trailing white space. */
  lemma TrimBounds(s: string) returns (i: nat, j: nat)
    ensures i == LeadingSpace(s) && i <= j <= |s| && Trim(s) == s[i..j]
    ensures j == if i == |s| then |s| else |s| - TrailingSpace(s)
  {
    i := LeadingSpace(s);
    j := if i == |s| then |s| else |s| - TrailingSpace(s);
  }

  lemma LowerSlice(s: string, i: nat, j: nat)
    requires i <= j <= |s|
    ensures Lower(s)[i..j] == Lower(s[i..j])
  {
  }

  /** Trimming and lower-casing commute, so `Lower(Trim(s))` is also the source's
      `s.toLowerCase().trim()`. */
  lemma LowerTrimCommute(s: string)
    ensures Lower(Trim(s)) == Trim(Lower(s))
  {
    LeadingSpaceLower(s);
    TrailingSpaceLower(s);
    var i, j := TrimBounds(s);
    var i', j' := TrimBounds(Lower(s));
    LowerSlice(s, i, j);
  }

  /** Lower-casing twice is lower-casing once. */
  lemma LowerIdempotent(s: string)
    ensures Lower(Lower(s)) == Lower(s)
  {
    LowerNoUpper(Lower(s));
  }

  /** Lower-casing leaves text without upper-case letters unchanged. */
  lemma LowerNoUpper(s: string)
    requires NoUpper(s)
    ensures Lower(s) == s
  {
  }
}

=== FILE: types.dfy ===
/** The records exchanged between the feed pipeline and the tab interface. */
module Types {
  import opened Wrappers

  /** A secondary citation; also the element type of the river of news.
      It carries no timestamp of its own. */
  datatype RelatedSource = RelatedSource(
    title: string,
    source: string,
    url: string,
    snippet: Option<string>)

  /** A featured story; its `timestamp` is a relative-time phrase such as "2 hours ago". */
  datatype NewsStory = NewsStory(
    id: string,
    title: string,
    summary: string,
    source: string,
    url: string,
    timestamp: string,
    relatedSources: seq<RelatedSource>)

  datatype SidebarItem = SidebarItem(title: string, url: string, source: string)

  datatype Sidebar = Sidebar(quickLinks: seq<SidebarItem>, trendingTopics: seq<string>)

  datatype NewsFeed = NewsFeed(
    topic: string,
    topStories: seq<NewsStory>,
    riverOfNews: seq<RelatedSource>,
    sidebar: Sidebar)

  /** There is no "loaded" state: a loaded tab is `Idle` with a feed present. */
  datatype LoadingState = Idle | Loading | Error

  /** One open topic tab; `feed` is absent until the first successful fetch. */
  datatype Tab = Tab(id: string, topic: string, feed: Option<NewsFeed>, status: LoadingState)
}

=== FILE: wrappers.dfy ===
/** Option and Result: the failure-carrying datatypes used throughout the model
    in place of JavaScript's `null`, `undefined` and thrown exceptions. */
module Wrappers {

  datatype Option<+T> = None | Some(value: T)

  datatype Result<+R, +E> = Success(value: R) | Failure(error: E)
}
